=== FILE: README.md ===
# Generated Sui Move struct bindings, modelled in Dafny

`sui-client-gen` emits one TypeScript class per on-chain Move struct. Each class carries:

- a type-name gate (`isX`);
- a binary (BCS) layout (`X.bcs`);
- a reified descriptor (`X.reified`);
- decoders from parsed binary fields (`fromFields`), typed RPC fields (`fromFieldsWithTypes`) and bytes (`fromBcs`);
- a JSON rendering (`toJSON`).

This project models five of these generated bindings and proves what the generated code promises about them:

- `0x2::borrow::Referent<T>`: an address plus `Option<T>`.
- `0x2::borrow::Borrow`: an address plus an `ID`.
- `0x2::kiosk_extension::Extension`: a `Bag`, a `u128` permission mask and an enabled flag.
- `0x2::kiosk_extension::ExtensionKey<phantom T>`: one `dummy_field` flag.
- `0x1::type_name::TypeName`: one ascii `String`. This binding comes from the class-based generator, so it also has the JSON decoders, `fromSuiParsedData` and a `StructClassReified` descriptor.

Modules:

- `Results` holds the `Option`/`Result` wrappers. A thrown `Error` becomes an `Err` carrying a `DecodeError`.
- `Bytes` holds bytes and little-endian fixed-width integers.
- `Hex` is the `fromHEX`/`toHEX` transform used for 32-byte addresses. It is base16 as in section 8 of RFC 4648: case-insensitive on input, optional `0x` prefix, lowercase on output.
- `Decimal` is the decimal text of `BigInt.toString()` and its parse.
- `Values` models the JavaScript values the bindings exchange: parsed layouts, typed-field items, JSON, and reified type arguments.
- `Bcs` models codecs as a writer/reader pair, `parse`, and the `bool`, fixed-width unsigned, address and struct codecs, with their round-trip laws.
- `Framework` holds the framework helpers the bindings call:
  - the type gates, and `extractType` as this model defines it (see "## Left out");
  - the generic-or-special decoders for `address`, `bool` and `u128`;
  - the reified descriptor records;
  - the `Collaborators` record. Its fields are the helpers whose code is not part of this model (`compressSuiType`, `composeSuiType`, `toBcs`, `assertFieldsWithTypesArgsMatch`, `genericToJSON`) and the sibling bindings `ID`, `Bag`, ascii `String` and `Option`. What the lemmas need from them is stated as ghost predicates (`ComposeNoArgs`, `SiblingCodecsLawful`, `StringJsonIdentity`) that appear only as preconditions.
- `BorrowStructs`, `KioskExtensionStructs` and `TypeNameStructs` are the bindings themselves.
- `Scenarios` gives one concrete `Collaborators` value that satisfies all three assumed predicates, so they are jointly satisfiable. Under it, it works through the decoding examples: a `Borrow` of 32 zero bytes then 32 bytes of `0x01`, a `Referent<u64>` holding 42 and holding nothing, and an `ExtensionKey<0x2::kiosk::Kiosk>`.

The codec law `Bcs.Lawful` works at byte level:

- the reader stops exactly after what the writer wrote;
- re-writing what the reader accepted gives back the consumed bytes.

A value-level round trip is the separate per-value predicate `Bcs.ReadsBackExactly`. The address transform accepts several spellings (upper case, a `0x` prefix) but always outputs lowercase hex, so only the canonical spelling comes back unchanged.

Points where the generated code is looser than its names suggest:

- Only exact type strings or `name<...>` prefixes are gated. The arity and identity of type arguments are left to `assertFieldsWithTypesArgsMatch`, which is a parameter here.
- `Borrow.toJSON` and `ExtensionKey.toJSON` output stored values as they are. Nothing re-canonicalises them.
- `TypeName.fromJSON` refuses JSON whose `$typeName` differs. The model gives that failure its own error kind, not the message text the code throws.

## Model

| member | source | states |
|---|---|---|
| BorrowStructs.ReferentNew | ts/tests/gen/sui-chain/borrow/structs.ts:58-63 | the instance records the full type string of its argument and stores `id` and `value` unchanged |
| BorrowStructs.IsReferent | ts/tests/gen/sui-chain/borrow/structs.ts:19-22 | accepts exactly the compressed strings that continue `0x2::borrow::Referent` with `<`, so never the bare name |
| BorrowStructs.ReferentFromBcs | ts/tests/gen/sui-chain/borrow/structs.ts:102-109 | an accepted input starts with 32 bytes whose lowercase hex, `0x`-prefixed, is the `id`; the result records the argument's full type name |
| BorrowStructs.ReferentFromFields | ts/tests/gen/sui-chain/borrow/structs.ts:77-85 | succeeds exactly when `id` is a string and `Option<T>` decodes `value`; `id` becomes its `0x` form and `value` is the Option decoding |
| BorrowStructs.ReferentFromFieldsWithTypes | ts/tests/gen/sui-chain/borrow/structs.ts:87-100 | a type failing `isReferent` is refused with a type mismatch before anything is decoded; success exactly when the gate, the argument check and both field decodings pass; `id` is taken as is |
| BorrowStructs.ReferentToJSON | ts/tests/gen/sui-chain/borrow/structs.ts:111-117 | JSON has exactly the keys `$typeArg`, `id` and `value`: the recorded type argument, the stored `id`, and `value` rendered as `0x1::option::Option<typeArg>` |
| BorrowStructs.ReferentReified | ts/tests/gen/sui-chain/borrow/structs.ts:65-75 | the descriptor names `0x2::borrow::Referent`, holds exactly the one type argument it was built for, and its codec is `Referent.bcs(toBcs(T))` |
| BorrowStructs.ReferentReifiedDispatches | ts/tests/gen/sui-chain/borrow/structs.ts:65-75 | the descriptor's decoders are the static ones, and its codec is `Referent.bcs(toBcs(T))`, so it depends only on `toBcs(T)` |
| BorrowStructs.ReferentBcs | ts/tests/gen/sui-chain/borrow/structs.ts:35-44 | the `Referent<T>` layout (`id` then `Option<T>`) round-trips whenever the `Option<T>` codec does |
| BorrowStructs.ReferentLayout | ts/tests/gen/sui-chain/borrow/structs.ts:35-44 | the encoding is the 32 `id` bytes followed by the `Option<T>` encoding |
| BorrowStructs.ReferentFromBcsDecodes | ts/tests/gen/sui-chain/borrow/structs.ts:102-109 | `fromBcs` of 32 address bytes plus one whole `Option<T>` encoding yields the `0x` hex id and the Option decoding |
| BorrowStructs.ReferentFromBcsRoundTrip | ts/tests/gen/sui-chain/borrow/structs.ts:102-109 | encoding fields and then calling `fromBcs` restores the id in `0x` form and decodes the value |
| BorrowStructs.BorrowGatesDisjoint | ts/tests/gen/sui-chain/borrow/structs.ts:19-22 | no type string passes both `isBorrow` and `isReferent`, and `isReferent` refuses the bare name |
| BorrowStructs.IsBorrow | ts/tests/gen/sui-chain/borrow/structs.ts:122-125 | accepts a type exactly when its compressed form is the name `0x2::borrow::Borrow`, so never an instantiation |
| BorrowStructs.BorrowFromBcs | ts/tests/gen/sui-chain/borrow/structs.ts:190-192 | an accepted input starts with 32 bytes whose lowercase hex, `0x`-prefixed, is the `ref` |
| BorrowStructs.BorrowFromFields | ts/tests/gen/sui-chain/borrow/structs.ts:172-177 | succeeds exactly when `ref` is a string and `ID` decodes `obj`; `ref` becomes its `0x` form |
| BorrowStructs.BorrowFromFieldsWithTypes | ts/tests/gen/sui-chain/borrow/structs.ts:179-188 | a type failing `isBorrow` is refused with a type mismatch; success exactly when the gate and both fields pass |
| BorrowStructs.BorrowToJSON | ts/tests/gen/sui-chain/borrow/structs.ts:194-199 | JSON has exactly the keys `ref` and `obj`, with the stored values |
| BorrowStructs.BorrowReified | ts/tests/gen/sui-chain/borrow/structs.ts:160-170 | the descriptor names `0x2::borrow::Borrow`, takes no type arguments, its codec is `Borrow.bcs`, and its three decoders are the static `fromFields`, `fromFieldsWithTypes` and `fromBcs` |
| BorrowStructs.BorrowBcs | ts/tests/gen/sui-chain/borrow/structs.ts:138-146 | the `Borrow` layout (`ref` then `ID`) round-trips whenever `ID.bcs` does |
| BorrowStructs.BorrowLayout | ts/tests/gen/sui-chain/borrow/structs.ts:138-146 | the encoding is the 32 `ref` bytes followed by the `ID` encoding |
| BorrowStructs.BorrowFromBcsDecodes | ts/tests/gen/sui-chain/borrow/structs.ts:190-192 | `fromBcs` of 32 address bytes plus one whole `ID` encoding yields the `0x` hex ref and the ID decoding |
| BorrowStructs.BorrowFromBcsCanonical | ts/tests/gen/sui-chain/borrow/structs.ts:190-192 | bytes that `fromBcs` accepts are exactly the encoding of the fields parsed from them |
| BorrowStructs.BorrowFromBcsRoundTrip | ts/tests/gen/sui-chain/borrow/structs.ts:190-192 | encoding fields and then calling `fromBcs` restores `ref` in `0x` form and decodes `obj` |
| KioskExtensionStructs.ExtensionFromFields | ts/tests/gen/sui-chain/kiosk-extension/structs.ts:66-72 | succeeds exactly when all three fields decode; the on-chain key `is_enabled` maps to `isEnabled` |
| KioskExtensionStructs.IsExtension | ts/tests/gen/sui-chain/kiosk-extension/structs.ts:15-18 | accepts a type exactly when its compressed form is the name `0x2::kiosk_extension::Extension`, so never an instantiation |
| KioskExtensionStructs.ExtensionParse | ts/tests/gen/sui-chain/kiosk-extension/structs.ts:32-38 | a parse leaves exactly 17 bytes after the Bag: 16 little-endian permission bytes and a 0/1 flag byte, which become the parsed fields |
| KioskExtensionStructs.ExtensionFromBcs | ts/tests/gen/sui-chain/kiosk-extension/structs.ts:86-88 | `storage` is the Bag decoding of the front of the bytes, `permissions` the little-endian value of the next 16 bytes, `isEnabled` whether the last byte is 1 |
| KioskExtensionStructs.ExtensionFromFieldsWithTypes | ts/tests/gen/sui-chain/kiosk-extension/structs.ts:74-84 | a type failing `isExtension` is refused with a type mismatch; success exactly when the gate and the three fields pass |
| KioskExtensionStructs.ExtensionToJSON | ts/tests/gen/sui-chain/kiosk-extension/structs.ts:90-96 | JSON has exactly the keys `storage`, `permissions` and `isEnabled`; `permissions` is a digit string without leading zeros whose decimal value is the mask; `storage` uses the Bag's JSON; `isEnabled` is unchanged |
| KioskExtensionStructs.ExtensionPermissionsJsonReadsBack | ts/tests/gen/sui-chain/kiosk-extension/structs.ts:90-96 | the JSON text of `permissions` reads back through the `u128` field decoder to the same mask |
| KioskExtensionStructs.ExtensionReified | ts/tests/gen/sui-chain/kiosk-extension/structs.ts:54-64 | the descriptor names `0x2::kiosk_extension::Extension`, takes no type arguments, its codec is `Extension.bcs`, and its three decoders are the static ones |
| KioskExtensionStructs.ExtensionBcs | ts/tests/gen/sui-chain/kiosk-extension/structs.ts:32-38 | the `Extension` layout (Bag, `u128`, `bool`) round-trips whenever `Bag.bcs` does |
| KioskExtensionStructs.ExtensionLayout | ts/tests/gen/sui-chain/kiosk-extension/structs.ts:32-38 | the encoding is the Bag bytes, then 16 little-endian permission bytes, then one flag byte |
| KioskExtensionStructs.ExtensionFromBcsRoundTrip | ts/tests/gen/sui-chain/kiosk-extension/structs.ts:86-88 | `fromBcs` of an encoding restores `permissions` and `isEnabled` and decodes `storage` through the Bag decoders |
| KioskExtensionStructs.ExtensionGatesDisjoint | ts/tests/gen/sui-chain/kiosk-extension/structs.ts:101-104 | no type string passes both `isExtension` and `isExtensionKey`, and `isExtensionKey` refuses the bare name |
| KioskExtensionStructs.ExtensionKeyNew | ts/tests/gen/sui-chain/kiosk-extension/structs.ts:132-134 | the key records the full type string of its argument and the given flag |
| KioskExtensionStructs.IsExtensionKey | ts/tests/gen/sui-chain/kiosk-extension/structs.ts:101-104 | accepts exactly the compressed strings that continue `0x2::kiosk_extension::ExtensionKey` with `<`, so never the bare name |
| KioskExtensionStructs.ExtensionKeyBcs | ts/tests/gen/sui-chain/kiosk-extension/structs.ts:116-120 | the one-flag layout round-trips, independently of any type argument |
| KioskExtensionStructs.ExtensionKeyParse | ts/tests/gen/sui-chain/kiosk-extension/structs.ts:116-120 | the layout parses exactly `[0]` and `[1]`, to `{dummy_field}` holding whether the byte is 1 |
| KioskExtensionStructs.ExtensionKeyFromFields | ts/tests/gen/sui-chain/kiosk-extension/structs.ts:148-150 | succeeds exactly when `dummy_field` is a boolean, which becomes `dummyField` |
| KioskExtensionStructs.ExtensionKeyFromFieldsWithTypes | ts/tests/gen/sui-chain/kiosk-extension/structs.ts:152-162 | a type failing `isExtensionKey` is refused with a type mismatch; success exactly when the gate, the argument check and the flag pass |
| KioskExtensionStructs.ExtensionKeyToJSON | ts/tests/gen/sui-chain/kiosk-extension/structs.ts:168-173 | JSON has exactly `$typeArg` and `dummyField` |
| KioskExtensionStructs.ExtensionKeyReified | ts/tests/gen/sui-chain/kiosk-extension/structs.ts:136-146 | the descriptor names `0x2::kiosk_extension::ExtensionKey`, holds exactly its one type argument, its codec is `ExtensionKey.bcs`, and its decoders are the static ones for that argument |
| KioskExtensionStructs.ExtensionKeyFromBcs | ts/tests/gen/sui-chain/kiosk-extension/structs.ts:164-166 | `fromBcs` accepts exactly the one-byte inputs `[0]` and `[1]`, giving the key for the argument's full name whose flag is whether the byte is 1 |
| KioskExtensionStructs.ExtensionKeyPhantomErasure | ts/tests/gen/sui-chain/kiosk-extension/structs.ts:116-120 | the codec is the same for every type argument, and the same bytes decode to the same flag under any two arguments |
| KioskExtensionStructs.KioskKeyDecodes | ts/tests/gen/sui-chain/kiosk-extension/structs.ts:148-150 | `{dummy_field: true}` and the byte `[1]` under `0x2::kiosk::Kiosk` give a set key recording that type |
| TypeNameStructs.NewTypeName | ts/examples/gen/_dependencies/source/0x1/type-name/structs.ts:39-43 | every constructed instance has `$fullTypeName` equal to `0x1::type_name::TypeName` and holds the given name |
| TypeNameStructs.IsTypeName | ts/examples/gen/_dependencies/source/0x1/type-name/structs.ts:18-21 | accepts a type exactly when its compressed form is the name `0x1::type_name::TypeName`, so never an instantiation |
| TypeNameStructs.TypeNameParse | ts/examples/gen/_dependencies/source/0x1/type-name/structs.ts:75-79 | the layout parses exactly the inputs that are one whole `String` encoding, to `{name}` holding its decoding |
| TypeNameStructs.TypeNameFromFields | ts/examples/gen/_dependencies/source/0x1/type-name/structs.ts:81-83 | succeeds exactly when the `String` decoder accepts `name`, giving a constructed instance with that name |
| TypeNameStructs.TypeNameFromFieldsWithTypes | ts/examples/gen/_dependencies/source/0x1/type-name/structs.ts:85-93 | a type failing `isTypeName` is refused with a type mismatch; success exactly when the gate and `name` pass |
| TypeNameStructs.TypeNameFromBcs | ts/examples/gen/_dependencies/source/0x1/type-name/structs.ts:95-97 | an accepted input is exactly one whole `String` encoding; the result is a constructed instance whose name is the `String` decoding of it |
| TypeNameStructs.TypeNameFromBcsDecodes | ts/examples/gen/_dependencies/source/0x1/type-name/structs.ts:95-97 | bytes that are one whole `String` encoding decode as `fromFields` of `{name}` |
| TypeNameStructs.TypeNameFromBcsRoundTrip | ts/examples/gen/_dependencies/source/0x1/type-name/structs.ts:95-97 | encoding `{name}` and then calling `fromBcs` gives `fromFields` of `{name}` when the name reads back exactly |
| TypeNameStructs.TypeNameToJSONField | ts/examples/gen/_dependencies/source/0x1/type-name/structs.ts:99-103 | the field object has exactly the key `name` |
| TypeNameStructs.TypeNameToJSON | ts/examples/gen/_dependencies/source/0x1/type-name/structs.ts:105-107 | the JSON has exactly `$typeName` (the type's name) and `name` |
| TypeNameStructs.TypeNameFromJSONField | ts/examples/gen/_dependencies/source/0x1/type-name/structs.ts:109-111 | a `null` or `undefined` field is refused, as reading `name` off it throws; otherwise succeeds exactly when the `String` JSON decoder accepts `name`, giving that name |
| TypeNameStructs.TypeNameFromJSON | ts/examples/gen/_dependencies/source/0x1/type-name/structs.ts:113-119 | JSON whose `$typeName` is not `0x1::type_name::TypeName` is refused; JSON whose `$typeName` is that name decodes exactly as `fromJSONField` of the same JSON |
| TypeNameStructs.TypeNameJsonFieldRoundTrip | ts/examples/gen/_dependencies/source/0x1/type-name/structs.ts:99-111 | `fromJSONField(toJSONField(x)) == x` |
| TypeNameStructs.TypeNameJsonRoundTrip | ts/examples/gen/_dependencies/source/0x1/type-name/structs.ts:105-119 | `fromJSON(toJSON(x)) == x` |
| TypeNameStructs.TypeNameFromSuiParsedData | ts/examples/gen/_dependencies/source/0x1/type-name/structs.ts:121-129 | non-objects are refused, objects of another type are refused, and the rest decode as typed fields |
| TypeNameStructs.TypeNameReified | ts/examples/gen/_dependencies/source/0x1/type-name/structs.ts:45-62 | the descriptor names the type, takes no arguments, has kind `StructClassReified`, its codec is `TypeName.bcs`, its five decoders (`fromFields`, `fromFieldsWithTypes`, `fromBcs`, `fromJSONField`, `fromJSON`) are the static ones, and its `new` builds constructed instances |
| TypeNameStructs.TypeNameReifiedFullName | ts/examples/gen/_dependencies/source/0x1/type-name/structs.ts:48 | with no type arguments the descriptor's full type name equals its type name |
| TypeNameStructs.TypeNameBcs | ts/examples/gen/_dependencies/source/0x1/type-name/structs.ts:75-79 | the `TypeName` layout round-trips whenever the ascii `String` codec does |
| TypeNameStructs.TypeNameLayout | ts/examples/gen/_dependencies/source/0x1/type-name/structs.ts:75-79 | the encoding is exactly the `String` encoding of `name` |
| Framework.GenericGateNeedsArguments | ts/tests/gen/sui-chain/borrow/structs.ts:19-22 | a `name<` prefix gate never accepts the bare name, and an exact gate never accepts an instantiation |
| Framework.ExtractTypeNonGeneric | ts/tests/gen/sui-chain/borrow/structs.ts:62 | a type argument without arguments is recorded as its bare name |
| Framework.AddressFromFields | ts/tests/gen/sui-chain/borrow/structs.ts:82 | a parsed address field is accepted exactly when it is a string and gains the `0x` prefix |
| Framework.AddressFromFieldsWithTypes | ts/tests/gen/sui-chain/borrow/structs.ts:97 | a typed address field is accepted exactly when it is a string and is kept as is |
| Framework.BoolField | ts/tests/gen/sui-chain/kiosk-extension/structs.ts:70 | a `bool` field is accepted exactly when it is a boolean, unchanged |
| Framework.U128Field | ts/tests/gen/sui-chain/kiosk-extension/structs.ts:69 | a number is accepted exactly when it is in the 128-bit range; a string exactly when it is decimal digits with a value in range, giving that value; anything else is refused |
| Framework.U128FieldReadsDecimal | ts/tests/gen/sui-chain/kiosk-extension/structs.ts:81 | the decimal text of a `u128` reads back as the same number |
| Bcs.ParseWritten | ts/tests/gen/sui-chain/borrow/structs.ts:191 | parsing what a lawful codec wrote succeeds and yields a value with the same encoding |
| Bcs.ParseCanonical | ts/tests/gen/sui-chain/borrow/structs.ts:191 | whatever parses re-encodes to exactly the parsed bytes |
| Bcs.ParseExact | ts/tests/gen/sui-chain/kiosk-extension/structs.ts:87 | for a value that reads back exactly, parsing its encoding returns the value |
| Bcs.BoolLawful | ts/tests/gen/sui-chain/kiosk-extension/structs.ts:36 | the `bool` codec round-trips at byte level |
| Bcs.BoolReadsBack | ts/tests/gen/sui-chain/kiosk-extension/structs.ts:36 | every boolean is written as one byte and read back unchanged |
| Bcs.UnsignedLawful | ts/tests/gen/sui-chain/kiosk-extension/structs.ts:35 | a fixed-width little-endian codec round-trips at byte level |
| Bcs.UnsignedReadsBack | ts/tests/gen/sui-chain/kiosk-extension/structs.ts:35 | every number below 256^width is written and read back unchanged |
| Bcs.U128Lawful | ts/tests/gen/sui-chain/kiosk-extension/structs.ts:35 | `bcs.u128()` round-trips at byte level |
| Bcs.U128ReadsBack | ts/tests/gen/sui-chain/kiosk-extension/structs.ts:35 | every `u128` is written as 16 bytes and read back unchanged |
| Bcs.AddressLawful | ts/tests/gen/sui-chain/borrow/structs.ts:38-41 | the 32-byte address transform round-trips at byte level |
| Bcs.AddressReadsHex | ts/tests/gen/sui-chain/borrow/structs.ts:38-41 | reading an address gives lowercase hex of the first 32 bytes |
| Bcs.AddressReadsBack | ts/tests/gen/sui-chain/borrow/structs.ts:38-41 | the canonical hex of 32 bytes is written and read back unchanged |
| Bcs.WriteFieldsFrame | ts/tests/gen/sui-chain/borrow/structs.ts:37-43 | a struct's encoding depends only on its declared fields |
| Bcs.StructLawful | ts/tests/gen/sui-chain/borrow/structs.ts:37-43 | a struct of lawful field codecs with distinct keys is lawful |
| Bcs.StructParseHead | ts/tests/gen/sui-chain/borrow/structs.ts:37-43 | a parsed struct holds under its first key what the first field's codec reads from the front of the bytes |
| Bcs.StructReadsBack | ts/tests/gen/sui-chain/borrow/structs.ts:37-43 | an object with exactly the declared keys, each reading back exactly, reads back exactly |
| Hex.FromHexToHex | ts/tests/gen/sui-chain/borrow/structs.ts:39-40 | `fromHEX(toHEX(b)) == b` |
| Hex.ToHexFromHexDigits | ts/tests/gen/sui-chain/borrow/structs.ts:39-40 | lowercase hex digits decode and re-encode to themselves |
| Hex.FromHexDigitsAccepts | ts/tests/gen/sui-chain/borrow/structs.ts:39 | hex digits are accepted exactly when their count is even and every one is a hex digit |
| Bytes.FromLEToLE | ts/tests/gen/sui-chain/kiosk-extension/structs.ts:35 | reading back the little-endian bytes of a number below 256^k gives the number |
| Bytes.ToLEFromLE | ts/tests/gen/sui-chain/kiosk-extension/structs.ts:35 | re-encoding the value of k bytes gives those bytes |
| Decimal.ParseToDecimal | ts/tests/gen/sui-chain/kiosk-extension/structs.ts:93 | the decimal text of `n` parses back to `n` |
| Decimal.ToDecimalParse | ts/tests/gen/sui-chain/kiosk-extension/structs.ts:93 | digit text without leading zeros is the decimal text of its value |
| Scenarios.ExampleIsLawful | ts/tests/gen/sui-chain/borrow/structs.ts:42-44 | one choice of collaborators meets all three assumed laws at once |
| Scenarios.OptionLawful | ts/tests/gen/sui-chain/borrow/structs.ts:42 | a presence-byte `Option<T>` codec is lawful whenever `T`'s is |
| Scenarios.BorrowOfZerosAndOnes | ts/tests/gen/sui-chain/borrow/structs.ts:190-192 | 32 zero bytes then 32 bytes of 0x01 decode to `ref` `0x00…00` and `obj.bytes` `0x0101…01` |
| Scenarios.ReferentOfU64Present | ts/tests/gen/sui-chain/borrow/structs.ts:102-109 | a `Referent<u64>` holding 42 decodes to the value 42 |
| Scenarios.ReferentOfU64Absent | ts/tests/gen/sui-chain/borrow/structs.ts:102-109 | a `Referent<u64>` holding nothing decodes to `null` |
| Scenarios.KioskKeyUnderExample | ts/tests/gen/sui-chain/kiosk-extension/structs.ts:164-166 | the byte `[1]` decodes to a set key recording `0x2::kiosk::Kiosk` |

## Left out

- `TypeName.fetch` is not modelled. It is network I/O through `SuiClient` plus base64 decoding, and once the object arrives it is `fromBcs` of the fetched bytes.
- `TypeName.r`, `TypeName.phantom` and `TypeName.p` are aliases and the framework's `phantom` wrapper. They have no behaviour of their own in this binding.
- The `__class` marker of the descriptors, the `$typeName` instance fields and the TypeScript type-level machinery (`ToField`, `ToTypeArgument`) are not modelled. They carry no runtime behaviour beyond the constants.
- `compressSuiType`, `composeSuiType`, `toBcs`, `assertFieldsWithTypesArgsMatch` and `genericToJSON` are parameters, because their code is not part of this model. So are the `ID`, `Bag`, ascii `String` and `Option` bindings. The lemmas state the properties they rely on as explicit preconditions.
- Error messages are not modelled. A thrown `Error` is an `Err` with a kind (type mismatch, argument mismatch, malformed field, parse error, trailing bytes, not an object, wrong JSON tag). So the `TypeName.fromJSON` message that names `WithTwoGenerics` is not reproduced.
- Bcs.UnsignedRead: `@mysten/bcs` reads `u64`, `u128` and `u256` as decimal strings, and its writers also accept numbers, bigints and strings. The model reads a number and writes only numbers. The decoded bindings are unaffected, because `Framework.U128Field` accepts both a number and its decimal string and gives the same value (`Framework.U128FieldReadsDecimal`). The library source is not part of this model.
- Bcs.Parse: a decode that does not consume all the bytes fails. The internals of `@mysten/bcs` `parse` are not part of this model.
- Hex.FromHex: odd-length or otherwise malformed hex fails. Any padding or leniency of the `@mysten/bcs` `fromHEX` implementation is not modelled.
- Bcs.AddressWrite: hex that does not decode to exactly 32 bytes fails to write. The library's own length handling for `bytes(32)` is not modelled.
- Bcs.BoolRead: only bytes 0 and 1 are accepted, as the BCS standard requires.
- Framework.AddressFromFields: `decodeFromFieldsGenericOrSpecial('address', v)` is not part of this model. Refusing a value that is not a string is a modelling choice, and so is adding the `0x` prefix to what the layout's `toHEX` produced.
- Framework.AddressFromFieldsWithTypes: `decodeFromFieldsWithTypesGenericOrSpecial('address', v)` is not part of this model. Refusing a value that is not a string is a modelling choice; a string is kept as is.
- Framework.BoolField: the framework's `bool` decoders are not part of this model. Refusing a value that is not a boolean is a modelling choice, where the framework may pass any value through.
- Framework.U128Field: `BigInt` of a non-numeric string throws; the model refuses it. The model also refuses inputs that `BigInt` accepts, because it reads only plain digit strings and numbers: the empty or all-whitespace string (which `BigInt` reads as 0), `true` and `false` (1 and 0), and hexadecimal, signed or whitespace-padded text. A value outside the 128-bit range is also refused, where the library would only fail later on encoding.
- Framework.ExtractType: the framework's `extractType` is not part of this model. Defining it as `composeSuiType` of the argument's name and its own arguments' extracted types is a modelling choice. Only `composeSuiType` is a parameter.
- Values.Get: a missing key is read as `null`, which stands for JavaScript `undefined`. Reading a key off `null` itself also gives `null`, where JavaScript throws. `TypeNameFromJSONField`, whose argument is untyped, refuses a `null` field explicitly. The `fromFields` and `fromFieldsWithTypes` decoders are declared to take objects, and a `null` passed there is read as an object with no keys. `TypeNameFromJSON` of `null` is refused as the wrong JSON tag, not as a thrown `TypeError`.
- BorrowStructs.ReferentBcs: the codec's name is `Referent<` + the element codec's name + `>`, as in the source. Nothing here depends on codec names: the modelled `write`/`read` pair never reads the name, so a renamed codec encodes and decodes the same bytes.
- Scenarios: the concrete collaborators implement only what the scenarios exercise. `Bag` and `String` refuse every input, and `ID` is its Move layout `{bytes: address}`.

=== FILE: bcs.dfy ===
/**
 * The BCS (Binary Canonical Serialization) codecs the bindings compose: a codec writes a
 * JavaScript value to bytes and reads a value back from the front of a byte sequence,
 * returning the unread rest. Struct codecs concatenate their fields' encodings in declared
 * order, with no tags, padding or separators.
 */
module Bcs {
  import opened Bytes
  import opened Results
  import opened Values
  import Hex

  /** `BcsType`: a named writer/reader pair. Both sides may refuse (writer: a value of the wrong shape; reader: short or invalid input). */
  datatype Codec = Codec(name: string, write: Value -> Option<Bytes>, read: Bytes -> Option<(Value, Bytes)>)

  /** Reading what the writer produced for `v`, followed by anything, stops exactly before that anything. */
  ghost predicate ConsumesWritten(c: Codec, v: Value, rest: Bytes) {
    c.write(v).Some? ==>
      c.read(c.write(v).value + rest).Some? && c.read(c.write(v).value + rest).value.1 == rest
  }

  /** Whatever the reader accepts at the front of `input` is what the writer writes for the value read. */
  ghost predicate RewritesRead(c: Codec, input: Bytes) {
    c.read(input).Some? ==>
      c.write(c.read(input).value.0).Some? &&
      input == c.write(c.read(input).value.0).value + c.read(input).value.1
  }

  /** The byte-level round trip: writer and reader are inverse on the bytes they exchange. */
  ghost predicate Lawful(c: Codec) {
    && (forall v, rest :: ConsumesWritten(c, v, rest))
    && (forall input :: RewritesRead(c, input))
  }

  /** The value-level round trip for one value: `v` is written and read back unchanged. */
  ghost predicate ReadsBackExactly(c: Codec, v: Value) {
    c.write(v).Some? && forall rest :: c.read(c.write(v).value + rest) == Some((v, rest))
  }

  /** `bcs.parse(data)`: the codec must read all of `data`. */
  function Parse(c: Codec, data: Bytes): Result<Value> {
    match c.read(data)
    case None => Err(CodecParseError)
    case Some((v, rest)) => if rest == [] then Ok(v) else Err(TrailingBytes(|rest|))
  }

  /** Parsing the bytes written for `v` succeeds and yields a value with the same encoding. */
  lemma ParseWritten(c: Codec, v: Value)
    requires Lawful(c)
    requires c.write(v).Some?
    ensures Parse(c, c.write(v).value).Ok?
    ensures c.write(Parse(c, c.write(v).value).value) == c.write(v)
  {
    var bs := c.write(v).value;
    assert bs + [] == bs;
    assert ConsumesWritten(c, v, []);
    var r := c.read(bs);
    assert r.Some? && r.value.1 == [];
    assert Parse(c, bs) == Ok(r.value.0);
    assert RewritesRead(c, bs);
    var w := c.write(r.value.0).value;
    assert bs == w + [];
    assert w + [] == w;
  }

  /** Whatever parses re-encodes to exactly the parsed bytes. */
  lemma ParseCanonical(c: Codec, data: Bytes)
    requires Lawful(c)
    requires Parse(c, data).Ok?
    ensures c.write(Parse(c, data).value) == Some(data)
  {
    var r := c.read(data);
    assert r.Some? && r.value.1 == [];
    assert Parse(c, data) == Ok(r.value.0);
    assert RewritesRead(c, data);
    var w := c.write(r.value.0).value;
    assert data == w + [];
    assert w + [] == w;
  }

  /** For a value that reads back exactly, parsing its encoding returns the value itself. */
  lemma ParseExact(c: Codec, v: Value)
    requires ReadsBackExactly(c, v)
    ensures Parse(c, c.write(v).value) == Ok(v)
  {
    var bs := c.write(v).value;
    assert c.read(bs + []) == Some((v, []));
    assert bs + [] == bs;
  }

  // ---------------------------------------------------------------- bool

  function BoolWrite(v: Value): Option<Bytes> {
    if v.VBool? then Some([if v.b then 1 else 0]) else None
  }

  function BoolRead(input: Bytes): Option<(Value, Bytes)> {
    if |input| >= 1 && input[0] <= 1 then Some((VBool(input[0] == 1), input[1..])) else None
  }

  /** `bcs.bool()`: one byte, 0 for false and 1 for true; any other byte is refused. */
  const BoolCodec: Codec := Codec("bool", BoolWrite, BoolRead)

  lemma BoolLawful()
    ensures Lawful(BoolCodec)
  {
    forall v, rest ensures ConsumesWritten(BoolCodec, v, rest) {
      if v.VBool? {
        assert (BoolWrite(v).value + rest)[1..] == rest;
      }
    }
    forall input ensures RewritesRead(BoolCodec, input) {
      if BoolRead(input).Some? {
        assert input == [input[0]] + input[1..];
      }
    }
  }

  lemma BoolReadsBack(b: bool)
    ensures ReadsBackExactly(BoolCodec, VBool(b))
  {
    var bs := BoolWrite(VBool(b)).value;
    forall rest ensures BoolCodec.read(bs + rest) == Some((VBool(b), rest)) {
      assert (bs + rest)[1..] == rest;
    }
  }

  // ---------------------------------------------------------------- unsigned integers

  function UnsignedWrite(width: nat, v: Value): Option<Bytes> {
    if v.VNum? && 0 <= v.n < Pow256(width) then Some(ToLE(v.n, width)) else None
  }

  function UnsignedRead(width: nat, input: Bytes): Option<(Value, Bytes)> {
    if |input| >= width then Some((VNum(FromLE(input[..width])), input[width..])) else None
  }

  /** `bcs.u8()` ... `bcs.u256()`: a fixed number of little-endian bytes. */
  function Unsigned(name: string, width: nat): Codec {
    Codec(name, v => UnsignedWrite(width, v), input => UnsignedRead(width, input))
  }

  /** `bcs.u128()`: 16 little-endian bytes. */
  const U128Codec: Codec := Unsigned("u128", U128_WIDTH)

  /** `bcs.u64()`: 8 little-endian bytes. */
  const U64Codec: Codec := Unsigned("u64", 8)

  lemma UnsignedLawful(name: string, width: nat)
    ensures Lawful(Unsigned(name, width))
  {
    var c := Unsigned(name, width);
    forall v, rest ensures ConsumesWritten(c, v, rest) {
      if UnsignedWrite(width, v).Some? {
        var bs := ToLE(v.n, width);
        assert (bs + rest)[width..] == rest;
      }
    }
    forall input ensures RewritesRead(c, input) {
      if UnsignedRead(width, input).Some? {
        ToLEFromLE(input[..width]);
        assert input == input[..width] + input[width..];
      }
    }
  }

  lemma UnsignedReadsBack(name: string, width: nat, n: nat)
    requires n < Pow256(width)
    ensures ReadsBackExactly(Unsigned(name, width), VNum(n))
  {
    var bs := ToLE(n, width);
    FromLEToLE(n, width);
    forall rest ensures UnsignedRead(width, bs + rest) == Some((VNum(n), rest)) {
      assert (bs + rest)[..width] == bs;
      assert (bs + rest)[width..] == rest;
    }
  }

  lemma U128Lawful()
    ensures Lawful(U128Codec)
  {
    UnsignedLawful("u128", U128_WIDTH);
  }

  lemma U128ReadsBack(n: U128)
    ensures ReadsBackExactly(U128Codec, VNum(n))
  {
    UnsignedReadsBack("u128", U128_WIDTH, n);
  }

  // ---------------------------------------------------------------- address

  /** Addresses and object identifiers are 32 raw bytes on the wire. */
  const ADDRESS_LENGTH: nat := 32

  function AddressWrite(v: Value): Option<Bytes> {
    if !v.VStr? then None
    else match Hex.FromHex(v.s)
      case Some(bs) => if |bs| == ADDRESS_LENGTH then Some(bs) else None
      case None => None
  }

  function AddressRead(input: Bytes): Option<(Value, Bytes)> {
    if |input| >= ADDRESS_LENGTH
    then Some((VStr(Hex.ToHex(input[..ADDRESS_LENGTH])), input[ADDRESS_LENGTH..]))
    else None
  }

  /** `bcs.bytes(32).transform({input: fromHEX, output: toHEX})`. */
  const AddressCodec: Codec := Codec("address", AddressWrite, AddressRead)

  lemma AddressLawful()
    ensures Lawful(AddressCodec)
  {
    forall v, rest ensures ConsumesWritten(AddressCodec, v, rest) {
      if AddressWrite(v).Some? {
        var bs := AddressWrite(v).value;
        assert (bs + rest)[ADDRESS_LENGTH..] == rest;
      }
    }
    forall input ensures RewritesRead(AddressCodec, input) {
      if AddressRead(input).Some? {
        Hex.FromHexToHex(input[..ADDRESS_LENGTH]);
        assert input == input[..ADDRESS_LENGTH] + input[ADDRESS_LENGTH..];
      }
    }
  }

  /** The address reader yields the 64 lowercase hex digits of the first 32 bytes. */
  lemma AddressReadsHex(input: Bytes)
    requires |input| >= ADDRESS_LENGTH
    ensures AddressCodec.read(input).Some?
    ensures AddressCodec.read(input).value.0.VStr?
    ensures |AddressCodec.read(input).value.0.s| == 2 * ADDRESS_LENGTH
    ensures Hex.IsLowerHex(AddressCodec.read(input).value.0.s)
    ensures Hex.FromHex(AddressCodec.read(input).value.0.s) == Some(input[..ADDRESS_LENGTH])
  {
    Hex.FromHexToHex(input[..ADDRESS_LENGTH]);
  }

  /** A canonical (lowercase, unprefixed) address string reads back unchanged. */
  lemma AddressReadsBack(bs: Bytes)
    requires |bs| == ADDRESS_LENGTH
    ensures ReadsBackExactly(AddressCodec, VStr(Hex.ToHex(bs)))
  {
    Hex.FromHexToHex(bs);
    forall rest ensures AddressCodec.read(bs + rest) == Some((VStr(Hex.ToHex(bs)), rest)) {
      assert (bs + rest)[..ADDRESS_LENGTH] == bs;
      assert (bs + rest)[ADDRESS_LENGTH..] == rest;
    }
  }

  // ---------------------------------------------------------------- structs

  /** One named field of a struct layout. */
  datatype Field = Field(key: string, codec: Codec)

  predicate DistinctKeys(fs: seq<Field>) {
    forall i, j :: 0 <= i < j < |fs| ==> fs[i].key != fs[j].key
  }

  function KeySet(fs: seq<Field>): set<string> {
    set i | 0 <= i < |fs| :: fs[i].key
  }

  ghost predicate AllLawful(fs: seq<Field>) {
    forall i :: 0 <= i < |fs| ==> Lawful(fs[i].codec)
  }

  /** Writes `v.key` with each field's codec, in declared order, and concatenates the results. */
  function WriteFields(fs: seq<Field>, v: Value): Option<Bytes>
    decreases |fs|
  {
    if fs == [] then Some([])
    else match (fs[0].codec.write(Get(v, fs[0].key)), WriteFields(fs[1..], v))
      case (Some(head), Some(tail)) => Some(head + tail)
      case _ => None
  }

  /** Reads each field in declared order, collecting the values under their keys. */
  function ReadFields(fs: seq<Field>, input: Bytes): Option<(map<string, Value>, Bytes)>
    decreases |fs|
  {
    if fs == [] then Some((map[], input))
    else match fs[0].codec.read(input)
      case None => None
      case Some((v, afterHead)) =>
        match ReadFields(fs[1..], afterHead)
        case None => None
        case Some((m, rest)) => Some((m[fs[0].key := v], rest))
  }

  function ReadStruct(fs: seq<Field>, input: Bytes): Option<(Value, Bytes)> {
    match ReadFields(fs, input)
    case None => None
    case Some((m, rest)) => Some((VObj(m), rest))
  }

  /** `bcs.struct(name, {k1: c1, ..., kn: cn})`. */
  function Struct(name: string, fs: seq<Field>): Codec {
    Codec(name, v => WriteFields(fs, v), input => ReadStruct(fs, input))
  }

  /** The object holding exactly the declared fields of `v`. */
  function Project(fs: seq<Field>, v: Value): map<string, Value> {
    map k | k in KeySet(fs) :: Get(v, k)
  }

  /** Writing a struct only looks at its declared fields. */
  lemma {:induction false} WriteFieldsFrame(fs: seq<Field>, v: Value, w: Value)
    requires forall i :: 0 <= i < |fs| ==> Get(v, fs[i].key) == Get(w, fs[i].key)
    ensures WriteFields(fs, v) == WriteFields(fs, w)
    decreases |fs|
  {
    if fs != [] {
      assert Get(v, fs[0].key) == Get(w, fs[0].key);
      WriteFieldsFrame(fs[1..], v, w);
    }
  }

  /** The struct reader consumes exactly the bytes the struct writer produced. */
  lemma {:induction false} ReadFieldsConsumesWritten(fs: seq<Field>, v: Value, rest: Bytes)
    requires AllLawful(fs)
    requires WriteFields(fs, v).Some?
    ensures ReadFields(fs, WriteFields(fs, v).value + rest).Some?
    ensures ReadFields(fs, WriteFields(fs, v).value + rest).value.1 == rest
    decreases |fs|
  {
    if fs != [] {
      var c := fs[0].codec;
      var head := c.write(Get(v, fs[0].key)).value;
      var tail := WriteFields(fs[1..], v).value;
      assert Lawful(c);
      assert ConsumesWritten(c, Get(v, fs[0].key), tail + rest);
      assert WriteFields(fs, v).value + rest == head + (tail + rest);
      ReadFieldsConsumesWritten(fs[1..], v, rest);
    }
  }

  lemma KeySetCons(fs: seq<Field>)
    requires fs != []
    ensures KeySet(fs) == {fs[0].key} + KeySet(fs[1..])
  {
    forall k | k in KeySet(fs) ensures k in {fs[0].key} + KeySet(fs[1..]) {
      var i :| 0 <= i < |fs| && fs[i].key == k;
      if i > 0 {
        assert fs[1..][i - 1].key == k;
      }
    }
    forall k | k in KeySet(fs[1..]) ensures k in KeySet(fs) {
      var i :| 0 <= i < |fs[1..]| && fs[1..][i].key == k;
      assert fs[i + 1].key == k;
    }
  }

  /** Writing an object whose first key was just set: that value's bytes, then the rest as before. */
  lemma WriteFieldsStep(fs: seq<Field>, m1: map<string, Value>, v0: Value)
    requires fs != [] && DistinctKeys(fs)
    requires fs[0].codec.write(v0).Some? && WriteFields(fs[1..], VObj(m1)).Some?
    ensures WriteFields(fs, VObj(m1[fs[0].key := v0])) ==
      Some(fs[0].codec.write(v0).value + WriteFields(fs[1..], VObj(m1)).value)
  {
    var m := m1[fs[0].key := v0];
    forall i | 0 <= i < |fs[1..]| ensures Get(VObj(m), fs[1..][i].key) == Get(VObj(m1), fs[1..][i].key) {
      assert fs[1..][i].key == fs[i + 1].key;
    }
    WriteFieldsFrame(fs[1..], VObj(m), VObj(m1));
  }

  /** The struct reader's object holds exactly the declared keys. */
  lemma {:induction false} ReadFieldsKeys(fs: seq<Field>, input: Bytes)
    requires ReadFields(fs, input).Some?
    ensures ReadFields(fs, input).value.0.Keys == KeySet(fs)
    decreases |fs|
  {
    if fs != [] {
      var afterHead := fs[0].codec.read(input).value.1;
      ReadFieldsKeys(fs[1..], afterHead);
      KeySetCons(fs);
    }
  }

  /** The struct reader's object re-encodes to the bytes it consumed. */
  lemma {:induction false} ReadFieldsRewritesBytes(fs: seq<Field>, input: Bytes)
    requires AllLawful(fs)
    requires DistinctKeys(fs)
    requires ReadFields(fs, input).Some?
    ensures WriteFields(fs, VObj(ReadFields(fs, input).value.0)).Some?
    ensures input == WriteFields(fs, VObj(ReadFields(fs, input).value.0)).value + ReadFields(fs, input).value.1
    decreases |fs|
  {
    if fs != [] {
      var c := fs[0].codec;
      var k := fs[0].key;
      assert Lawful(c) && AllLawful(fs[1..]) && DistinctKeys(fs[1..]);
      assert RewritesRead(c, input);
      var (v0, afterHead) := c.read(input).value;
      ReadFieldsRewritesBytes(fs[1..], afterHead);
      var (m1, rest) := ReadFields(fs[1..], afterHead).value;
      assert ReadFields(fs, input) == Some((m1[k := v0], rest));
      WriteFieldsStep(fs, m1, v0);
      assert input == c.write(v0).value + WriteFields(fs[1..], VObj(m1)).value + rest;
    }
  }

  /** What the struct reader returns holds exactly the declared keys and re-encodes to the bytes it consumed. */
  lemma ReadFieldsRewrites(fs: seq<Field>, input: Bytes)
    requires AllLawful(fs)
    requires DistinctKeys(fs)
    requires ReadFields(fs, input).Some?
    ensures ReadFields(fs, input).value.0.Keys == KeySet(fs)
    ensures WriteFields(fs, VObj(ReadFields(fs, input).value.0)).Some?
    ensures input == WriteFields(fs, VObj(ReadFields(fs, input).value.0)).value + ReadFields(fs, input).value.1
  {
    ReadFieldsKeys(fs, input);
    ReadFieldsRewritesBytes(fs, input);
  }

  /** The composed struct codec is lawful when its field codecs are and its keys are distinct. */
  lemma StructLawful(name: string, fs: seq<Field>)
    ensures AllLawful(fs) && DistinctKeys(fs) ==> Lawful(Struct(name, fs))
  {
    if AllLawful(fs) && DistinctKeys(fs) {
      var c := Struct(name, fs);
      forall v, rest ensures ConsumesWritten(c, v, rest) {
        if WriteFields(fs, v).Some? {
          ReadFieldsConsumesWritten(fs, v, rest);
        }
      }
      forall input ensures RewritesRead(c, input) {
        if ReadFields(fs, input).Some? {
          ReadFieldsRewrites(fs, input);
        }
      }
    }
  }

  /** A parsed struct holds, under its first key, what the first field's codec reads from the front of the bytes. */
  lemma StructParseHead(name: string, fs: seq<Field>, data: Bytes)
    requires fs != []
    ensures Parse(Struct(name, fs), data).Ok? ==>
      && fs[0].codec.read(data).Some?
      && Get(Parse(Struct(name, fs), data).value, fs[0].key) == fs[0].codec.read(data).value.0
  {
    if Parse(Struct(name, fs), data).Ok? {
      var (v, afterHead) := fs[0].codec.read(data).value;
      var (m, rest) := ReadFields(fs[1..], afterHead).value;
      assert ReadFields(fs, data) == Some((m[fs[0].key := v], rest));
    }
  }

  /** Reading the encoding of `v` gives back its declared fields unchanged when each field reads back exactly. */
  lemma {:induction false} ReadFieldsExact(fs: seq<Field>, v: Value, rest: Bytes)
    requires DistinctKeys(fs)
    requires forall i :: 0 <= i < |fs| ==> ReadsBackExactly(fs[i].codec, Get(v, fs[i].key))
    ensures WriteFields(fs, v).Some?
    ensures ReadFields(fs, WriteFields(fs, v).value + rest) == Some((Project(fs, v), rest))
    decreases |fs|
  {
    if fs == [] {
      assert Project(fs, v) == map[];
      assert [] + rest == rest;
    } else {
      var c := fs[0].codec;
      var k := fs[0].key;
      assert ReadsBackExactly(c, Get(v, k));
      ReadFieldsExact(fs[1..], v, rest);
      var head := c.write(Get(v, k)).value;
      var tail := WriteFields(fs[1..], v).value;
      assert WriteFields(fs, v).value + rest == head + (tail + rest);
      assert c.read(head + (tail + rest)) == Some((Get(v, k), tail + rest));
      assert KeySet(fs) == {k} + KeySet(fs[1..]);
      assert Project(fs[1..], v)[k := Get(v, k)] == Project(fs, v);
    }
  }

  /** A struct value with exactly the declared keys, each reading back exactly, reads back exactly. */
  lemma StructReadsBack(name: string, fs: seq<Field>, m: map<string, Value>)
    requires DistinctKeys(fs)
    requires m.Keys == KeySet(fs)
    requires forall i :: 0 <= i < |fs| ==> ReadsBackExactly(fs[i].codec, Get(VObj(m), fs[i].key))
    ensures ReadsBackExactly(Struct(name, fs), VObj(m))
  {
    var c := Struct(name, fs);
    ReadFieldsExact(fs, VObj(m), []);
    var bs := WriteFields(fs, VObj(m)).value;
    assert Project(fs, VObj(m)) == m;
    forall rest ensures c.read(bs + rest) == Some((VObj(m), rest)) {
      ReadFieldsExact(fs, VObj(m), rest);
    }
  }
}

=== FILE: borrow.dfy ===
/**
 * Bindings of the Move module `0x2::borrow`: the generic struct `Referent<T>` (an address
 * and an optional `T`) and the non-generic `Borrow` (an address and an `ID`).
 */
module BorrowStructs {
  import opened Results
  import opened Bytes
  import opened Values
  import opened Bcs
  import opened Framework
  import Hex

  // ================================================================ Referent

  const REFERENT_TYPE_NAME: string := "0x2::borrow::Referent"
  const REFERENT_NUM_TYPE_PARAMS: nat := 1

  /** `isReferent`: the compressed type string is an instantiation `0x2::borrow::Referent<...>`. */
  predicate IsReferent(fw: Collaborators, t: string)
    ensures IsReferent(fw, t) <==>
      && |fw.compress(t)| > |REFERENT_TYPE_NAME|
      && fw.compress(t)[..|REFERENT_TYPE_NAME|] == REFERENT_TYPE_NAME
      && fw.compress(t)[|REFERENT_TYPE_NAME|] == '<'
    ensures IsReferent(fw, t) ==> fw.compress(t) != REFERENT_TYPE_NAME
  {
    IsGenericStruct(fw, t, REFERENT_TYPE_NAME)
  }

  /** A `Referent<T>`: the recorded full name of `T`, the `id` address and the decoded `Option<T>`. */
  datatype Referent = Referent(typeArg: string, id: string, value: Value)

  /** `Referent.bcs(T)`: the 32 `id` bytes, then `Option<T>` built from the codec of `T`. */
  function ReferentBcs(fw: Collaborators, t: Codec): (c: Codec)
    ensures Lawful(fw.optionBcs(t)) ==> Lawful(c)
  {
    var fs := [Field("id", AddressCodec), Field("value", fw.optionBcs(t))];
    AddressLawful();
    StructLawful("Referent<" + t.name + ">", fs);
    Struct("Referent<" + t.name + ">", fs)
  }

  /** `Referent.new`: records the full name of the type argument; the fields are stored as given. */
  function ReferentNew(fw: Collaborators, typeArg: TypeArg, id: string, value: Value): (r: Referent)
    ensures r.typeArg == ExtractType(fw, typeArg)
    ensures r.id == id && r.value == value
  {
    Referent(ExtractType(fw, typeArg), id, value)
  }

  /** `Referent.fromFields`: decodes `id` as an address and `value` with the decoders of `Option<T>`. */
  function ReferentFromFields(fw: Collaborators, typeArg: TypeArg, fields: Value): (r: Result<Referent>)
    ensures r.Ok? <==>
      Get(fields, "id").VStr? && fw.option(typeArg).fromFields(Get(fields, "value")).Ok?
    ensures r.Ok? ==>
      && r.value.typeArg == ExtractType(fw, typeArg)
      && r.value.id == "0x" + Get(fields, "id").s
      && Ok(r.value.value) == fw.option(typeArg).fromFields(Get(fields, "value"))
  {
    var id :- AddressFromFields(Get(fields, "id"));
    var value :- fw.option(typeArg).fromFields(Get(fields, "value"));
    Ok(ReferentNew(fw, typeArg, id, value))
  }

  /** `Referent.fromFieldsWithTypes`: nothing is decoded unless the type passes `isReferent` and its arguments match. */
  function ReferentFromFieldsWithTypes(fw: Collaborators, typeArg: TypeArg, item: FieldsWithTypes): (r: Result<Referent>)
    ensures !IsReferent(fw, item.typ) ==> r == Err(NotThisType(REFERENT_TYPE_NAME, item.typ))
    ensures r.Ok? <==>
      && IsReferent(fw, item.typ) && fw.argsMatch(item, [typeArg])
      && Get(item.fields, "id").VStr?
      && fw.option(typeArg).fromFieldsWithTypes(Get(item.fields, "value")).Ok?
    ensures r.Ok? ==>
      && r.value.typeArg == ExtractType(fw, typeArg)
      && VStr(r.value.id) == Get(item.fields, "id")
      && Ok(r.value.value) == fw.option(typeArg).fromFieldsWithTypes(Get(item.fields, "value"))
  {
    if !IsReferent(fw, item.typ) then Err(NotThisType(REFERENT_TYPE_NAME, item.typ))
    else if !fw.argsMatch(item, [typeArg]) then Err(TypeArgsMismatch(item.typ))
    else
      var id :- AddressFromFieldsWithTypes(Get(item.fields, "id"));
      var value :- fw.option(typeArg).fromFieldsWithTypes(Get(item.fields, "value"));
      Ok(ReferentNew(fw, typeArg, id, value))
  }

  /** `Referent.fromBcs`: parses with the codec built from `toBcs(T)`, then `fromFields`; the `id` is the hex of the first 32 bytes. */
  function ReferentFromBcs(fw: Collaborators, typeArg: TypeArg, data: Bytes): (r: Result<Referent>)
    ensures r.Ok? ==> |data| >= ADDRESS_LENGTH && r.value.id == "0x" + Hex.ToHex(data[..ADDRESS_LENGTH])
    ensures r.Ok? ==> r.value.typeArg == ExtractType(fw, typeArg)
  {
    var t := fw.toBcs(typeArg);
    StructParseHead("Referent<" + t.name + ">", [Field("id", AddressCodec), Field("value", fw.optionBcs(t))], data);
    var fields :- Parse(ReferentBcs(fw, t), data);
    ReferentFromFields(fw, typeArg, fields)
  }

  /** `Referent.toJSON`: `$typeArg`, `id` as stored, and `value` rendered as an `Option` of the recorded type. */
  function ReferentToJSON(fw: Collaborators, r: Referent): (j: Value)
    ensures j.VObj? && j.fields.Keys == {"$typeArg", "id", "value"}
    ensures Get(j, "$typeArg") == VStr(r.typeArg)
    ensures Get(j, "id") == VStr(r.id)
    ensures Get(j, "value") == fw.genericToJSON("0x1::option::Option<" + r.typeArg + ">", r.value)
  {
    VObj(map[
      "$typeArg" := VStr(r.typeArg),
      "id" := VStr(r.id),
      "value" := fw.genericToJSON("0x1::option::Option<" + r.typeArg + ">", r.value)])
  }

  /** `Referent.reified(T)`. */
  function ReferentReified(fw: Collaborators, t: TypeArg): (r: Reified<Referent>)
    ensures r.typeName == REFERENT_TYPE_NAME
    ensures |r.typeArgs| == REFERENT_NUM_TYPE_PARAMS && r.typeArgs[0] == t
    ensures r.bcs == ReferentBcs(fw, fw.toBcs(t))
  {
    Reified(
      REFERENT_TYPE_NAME,
      [t],
      ReferentBcs(fw, fw.toBcs(t)),
      fields => ReferentFromFields(fw, t, fields),
      item => ReferentFromFieldsWithTypes(fw, t, item),
      data => ReferentFromBcs(fw, t, data))
  }

  /** The descriptor's functions are the static decoders, and its codec is built from `toBcs(T)` alone. */
  lemma ReferentReifiedDispatches(fw: Collaborators, t: TypeArg, u: TypeArg)
    ensures forall fields :: ReferentReified(fw, t).fromFields(fields) == ReferentFromFields(fw, t, fields)
    ensures forall item :: ReferentReified(fw, t).fromFieldsWithTypes(item) == ReferentFromFieldsWithTypes(fw, t, item)
    ensures forall data :: ReferentReified(fw, t).fromBcs(data) == ReferentFromBcs(fw, t, data)
    ensures ReferentReified(fw, t).bcs == ReferentBcs(fw, fw.toBcs(t))
    ensures fw.toBcs(t) == fw.toBcs(u) ==> ReferentReified(fw, t).bcs == ReferentReified(fw, u).bcs
  {
  }

  /** The encoding of a `Referent<T>` is the 32 `id` bytes followed by the `Option<T>` encoding. */
  lemma ReferentLayout(fw: Collaborators, t: Codec, idHex: string, value: Value, idBytes: Bytes, valueBytes: Bytes)
    requires Hex.FromHex(idHex) == Some(idBytes) && |idBytes| == ADDRESS_LENGTH
    requires fw.optionBcs(t).write(value) == Some(valueBytes)
    ensures ReferentBcs(fw, t).write(VObj(map["id" := VStr(idHex), "value" := value])) == Some(idBytes + valueBytes)
  {
    var v := VObj(map["id" := VStr(idHex), "value" := value]);
    var fs := [Field("id", AddressCodec), Field("value", fw.optionBcs(t))];
    assert Get(v, "id") == VStr(idHex) && Get(v, "value") == value;
    assert WriteFields(fs[2..], v) == Some([]);
    assert WriteFields(fs[1..], v) == Some(valueBytes + []);
    assert valueBytes + [] == valueBytes;
  }

  /**
   * `fromBcs` is `fromFields` of what the codec parsed: 32 address bytes become the `0x` hex
   * `id`, and the rest, when it is exactly one `Option<T>` encoding, is decoded as `value`.
   */
  lemma ReferentFromBcsDecodes(fw: Collaborators, typeArg: TypeArg, idBytes: Bytes, rest: Bytes, opt: Value)
    requires |idBytes| == ADDRESS_LENGTH
    requires fw.optionBcs(fw.toBcs(typeArg)).read(rest) == Some((opt, []))
    ensures ReferentFromBcs(fw, typeArg, idBytes + rest) ==
      (match fw.option(typeArg).fromFields(opt)
       case Ok(x) => Ok(Referent(ExtractType(fw, typeArg), "0x" + Hex.ToHex(idBytes), x))
       case Err(e) => Err(e))
  {
    var c := ReferentBcs(fw, fw.toBcs(typeArg));
    var fs := [Field("id", AddressCodec), Field("value", fw.optionBcs(fw.toBcs(typeArg)))];
    var data := idBytes + rest;
    assert data[..ADDRESS_LENGTH] == idBytes && data[ADDRESS_LENGTH..] == rest;
    var hex := VStr(Hex.ToHex(idBytes));
    assert AddressCodec.read(data) == Some((hex, rest));
    assert ReadFields(fs[2..], []) == Some((map[], []));
    assert ReadFields(fs[1..], rest) == Some((map["value" := opt], []));
    var m := map["value" := opt]["id" := hex];
    assert ReadFields(fs, data) == Some((m, []));
    assert Parse(c, data) == Ok(VObj(m));
    assert Get(VObj(m), "id") == hex && Get(VObj(m), "value") == opt;
  }

  /**
   * Encoding then `fromBcs`: the fields written with the canonical hex of `idBytes` decode to
   * the `0x` form of that hex, and to the `Option<T>` value's decoding, when that value reads back exactly.
   */
  lemma ReferentFromBcsRoundTrip(fw: Collaborators, typeArg: TypeArg, idBytes: Bytes, value: Value)
    requires |idBytes| == ADDRESS_LENGTH
    requires ReadsBackExactly(fw.optionBcs(fw.toBcs(typeArg)), value)
    ensures ReferentBcs(fw, fw.toBcs(typeArg)).write(VObj(map["id" := VStr(Hex.ToHex(idBytes)), "value" := value])).Some?
    ensures ReferentFromBcs(fw, typeArg,
        ReferentBcs(fw, fw.toBcs(typeArg)).write(VObj(map["id" := VStr(Hex.ToHex(idBytes)), "value" := value])).value) ==
      (match fw.option(typeArg).fromFields(value)
       case Ok(x) => Ok(Referent(ExtractType(fw, typeArg), "0x" + Hex.ToHex(idBytes), x))
       case Err(e) => Err(e))
  {
    var oc := fw.optionBcs(fw.toBcs(typeArg));
    var valueBytes := oc.write(value).value;
    Hex.FromHexToHex(idBytes);
    ReferentLayout(fw, fw.toBcs(typeArg), Hex.ToHex(idBytes), value, idBytes, valueBytes);
    assert oc.read(valueBytes + []) == Some((value, []));
    assert valueBytes + [] == valueBytes;
    ReferentFromBcsDecodes(fw, typeArg, idBytes, valueBytes, value);
  }

  // ================================================================ Borrow

  const BORROW_TYPE_NAME: string := "0x2::borrow::Borrow"
  const BORROW_NUM_TYPE_PARAMS: nat := 0

  /** `isBorrow`: the compressed type string is exactly `0x2::borrow::Borrow`, which carries no type-argument list. */
  predicate IsBorrow(fw: Collaborators, t: string)
    ensures IsBorrow(fw, t) <==> fw.compress(t) == BORROW_TYPE_NAME
    ensures fw.compress(t) == BORROW_TYPE_NAME ==> IsBorrow(fw, t)
    ensures IsBorrow(fw, t) ==> '<' !in fw.compress(t) && |fw.compress(t)| == |BORROW_TYPE_NAME|
  {
    IsStruct(fw, t, BORROW_TYPE_NAME)
  }

  /** No type string passes both gates of this module, and `isReferent` refuses the bare name. */
  lemma BorrowGatesDisjoint(fw: Collaborators, t: string)
    ensures !(IsBorrow(fw, t) && IsReferent(fw, t))
    ensures fw.compress(t) == REFERENT_TYPE_NAME ==> !IsReferent(fw, t)
  {
  }

  /** A `Borrow`: the `ref` address and the decoded `ID` of the borrowed object. */
  datatype Borrow = Borrow(ref: string, obj: Value)

  /** `Borrow.bcs`: the 32 `ref` bytes, then `ID.bcs`. */
  function BorrowBcs(fw: Collaborators): (c: Codec)
    ensures Lawful(fw.idBcs) ==> Lawful(c)
  {
    var fs := [Field("ref", AddressCodec), Field("obj", fw.idBcs)];
    AddressLawful();
    StructLawful("Borrow", fs);
    Struct("Borrow", fs)
  }

  /** `Borrow.fromFields`: `ref` as an address, `obj` with the decoders of `ID`. */
  function BorrowFromFields(fw: Collaborators, fields: Value): (r: Result<Borrow>)
    ensures r.Ok? <==> Get(fields, "ref").VStr? && fw.id.fromFields(Get(fields, "obj")).Ok?
    ensures r.Ok? ==>
      && r.value.ref == "0x" + Get(fields, "ref").s
      && Ok(r.value.obj) == fw.id.fromFields(Get(fields, "obj"))
  {
    var ref :- AddressFromFields(Get(fields, "ref"));
    var obj :- fw.id.fromFields(Get(fields, "obj"));
    Ok(Borrow(ref, obj))
  }

  /** `Borrow.fromFieldsWithTypes`: nothing is decoded unless the type passes `isBorrow`. */
  function BorrowFromFieldsWithTypes(fw: Collaborators, item: FieldsWithTypes): (r: Result<Borrow>)
    ensures !IsBorrow(fw, item.typ) ==> r == Err(NotThisType(BORROW_TYPE_NAME, item.typ))
    ensures r.Ok? <==>
      IsBorrow(fw, item.typ) && Get(item.fields, "ref").VStr? &&
      fw.id.fromFieldsWithTypes(Get(item.fields, "obj")).Ok?
    ensures r.Ok? ==>
      && VStr(r.value.ref) == Get(item.fields, "ref")
      && Ok(r.value.obj) == fw.id.fromFieldsWithTypes(Get(item.fields, "obj"))
  {
    if !IsBorrow(fw, item.typ) then Err(NotThisType(BORROW_TYPE_NAME, item.typ))
    else
      var ref :- AddressFromFieldsWithTypes(Get(item.fields, "ref"));
      var obj :- fw.id.fromFieldsWithTypes(Get(item.fields, "obj"));
      Ok(Borrow(ref, obj))
  }

  /** `Borrow.fromBcs`: parses with `Borrow.bcs`, then `fromFields`; the `ref` is the hex of the first 32 bytes. */
  function BorrowFromBcs(fw: Collaborators, data: Bytes): (r: Result<Borrow>)
    ensures r.Ok? ==> |data| >= ADDRESS_LENGTH && r.value.ref == "0x" + Hex.ToHex(data[..ADDRESS_LENGTH])
  {
    StructParseHead("Borrow", [Field("ref", AddressCodec), Field("obj", fw.idBcs)], data);
    var fields :- Parse(BorrowBcs(fw), data);
    BorrowFromFields(fw, fields)
  }

  /** `Borrow.toJSON`: the two fields under their own names, unchanged. */
  function BorrowToJSON(b: Borrow): (j: Value)
    ensures j.VObj? && j.fields.Keys == {"ref", "obj"}
    ensures Get(j, "ref") == VStr(b.ref) && Get(j, "obj") == b.obj
  {
    VObj(map["ref" := VStr(b.ref), "obj" := b.obj])
  }

  /** `Borrow.reified()`. */
  function BorrowReified(fw: Collaborators): (r: Reified<Borrow>)
    ensures r.typeName == BORROW_TYPE_NAME
    ensures |r.typeArgs| == BORROW_NUM_TYPE_PARAMS
    ensures r.bcs == BorrowBcs(fw)
    ensures forall fields :: r.fromFields(fields) == BorrowFromFields(fw, fields)
    ensures forall item :: r.fromFieldsWithTypes(item) == BorrowFromFieldsWithTypes(fw, item)
    ensures forall data :: r.fromBcs(data) == BorrowFromBcs(fw, data)
  {
    Reified(
      BORROW_TYPE_NAME,
      [],
      BorrowBcs(fw),
      fields => BorrowFromFields(fw, fields),
      item => BorrowFromFieldsWithTypes(fw, item),
      data => BorrowFromBcs(fw, data))
  }

  /** The encoding of a `Borrow` is the 32 `ref` bytes followed by the `ID` encoding. */
  lemma BorrowLayout(fw: Collaborators, refHex: string, obj: Value, refBytes: Bytes, objBytes: Bytes)
    requires Hex.FromHex(refHex) == Some(refBytes) && |refBytes| == ADDRESS_LENGTH
    requires fw.idBcs.write(obj) == Some(objBytes)
    ensures BorrowBcs(fw).write(VObj(map["ref" := VStr(refHex), "obj" := obj])) == Some(refBytes + objBytes)
  {
    var v := VObj(map["ref" := VStr(refHex), "obj" := obj]);
    var fs := [Field("ref", AddressCodec), Field("obj", fw.idBcs)];
    assert Get(v, "ref") == VStr(refHex) && Get(v, "obj") == obj;
    assert WriteFields(fs[2..], v) == Some([]);
    assert WriteFields(fs[1..], v) == Some(objBytes + []);
    assert objBytes + [] == objBytes;
  }

  /**
   * `fromBcs` is `fromFields` of what the codec parsed: 32 bytes become the `0x` hex `ref`,
   * and the rest, when it is exactly one `ID` encoding, is decoded as `obj`.
   */
  lemma BorrowFromBcsDecodes(fw: Collaborators, refBytes: Bytes, rest: Bytes, idFields: Value)
    requires |refBytes| == ADDRESS_LENGTH
    requires fw.idBcs.read(rest) == Some((idFields, []))
    ensures BorrowFromBcs(fw, refBytes + rest) ==
      (match fw.id.fromFields(idFields)
       case Ok(x) => Ok(Borrow("0x" + Hex.ToHex(refBytes), x))
       case Err(e) => Err(e))
  {
    var fs := [Field("ref", AddressCodec), Field("obj", fw.idBcs)];
    var data := refBytes + rest;
    assert data[..ADDRESS_LENGTH] == refBytes && data[ADDRESS_LENGTH..] == rest;
    var hex := VStr(Hex.ToHex(refBytes));
    assert AddressCodec.read(data) == Some((hex, rest));
    assert ReadFields(fs[2..], []) == Some((map[], []));
    assert ReadFields(fs[1..], rest) == Some((map["obj" := idFields], []));
    var m := map["obj" := idFields]["ref" := hex];
    assert ReadFields(fs, data) == Some((m, []));
    assert Parse(BorrowBcs(fw), data) == Ok(VObj(m));
    assert Get(VObj(m), "ref") == hex && Get(VObj(m), "obj") == idFields;
  }

  /** Decoding then re-encoding: any bytes `Borrow.fromBcs` accepts are the encoding of the fields it parsed. */
  lemma BorrowFromBcsCanonical(fw: Collaborators, data: Bytes)
    requires Lawful(fw.idBcs)
    requires BorrowFromBcs(fw, data).Ok?
    ensures Parse(BorrowBcs(fw), data).Ok?
    ensures BorrowBcs(fw).write(Parse(BorrowBcs(fw), data).value) == Some(data)
  {
    ParseCanonical(BorrowBcs(fw), data);
  }

  /** Encoding then `fromBcs`: `ref` comes back in its `0x` form and `obj` through the `ID` decoders, when the `ID` value reads back exactly. */
  lemma BorrowFromBcsRoundTrip(fw: Collaborators, refBytes: Bytes, obj: Value)
    requires |refBytes| == ADDRESS_LENGTH
    requires ReadsBackExactly(fw.idBcs, obj)
    ensures BorrowBcs(fw).write(VObj(map["ref" := VStr(Hex.ToHex(refBytes)), "obj" := obj])).Some?
    ensures BorrowFromBcs(fw, BorrowBcs(fw).write(VObj(map["ref" := VStr(Hex.ToHex(refBytes)), "obj" := obj])).value) ==
      (match fw.id.fromFields(obj)
       case Ok(x) => Ok(Borrow("0x" + Hex.ToHex(refBytes), x))
       case Err(e) => Err(e))
  {
    var objBytes := fw.idBcs.write(obj).value;
    Hex.FromHexToHex(refBytes);
    BorrowLayout(fw, Hex.ToHex(refBytes), obj, refBytes, objBytes);
    assert fw.idBcs.read(objBytes + []) == Some((obj, []));
    assert objBytes + [] == objBytes;
    BorrowFromBcsDecodes(fw, refBytes, objBytes, obj);
  }
}

=== FILE: bytes.dfy ===
/** Bytes and the little-endian fixed-width integers of the BCS wire format. */
module Bytes {

  type Byte = b: int | 0 <= b < 256
  type Bytes = seq<Byte>

  /** 256^k, the number of values `k` bytes can hold. */
  function Pow256(k: nat): (r: nat)
    ensures r >= 1
  {
    if k == 0 then 1 else 256 * Pow256(k - 1)
  }

  /** Width in bytes of a Move `u128`. */
  const U128_WIDTH: nat := 16

  /** Unsigned 128-bit integers: 0 <= n < 256^16 = 2^128. */
  type U128 = n: nat | n < Pow256(U128_WIDTH)

  lemma DivBound(n: nat, k: nat)
    requires k > 0 && n < Pow256(k)
    ensures n / 256 < Pow256(k - 1)
  {
  }

  /** The `k` little-endian bytes of `n`, least significant first. */
  function ToLE(n: nat, k: nat): (r: Bytes)
    requires n < Pow256(k)
    ensures |r| == k
  {
    if k == 0 then []
    else
      DivBound(n, k);
      [n % 256] + ToLE(n / 256, k - 1)
  }

  /** The number whose little-endian bytes are `bs`. */
  function FromLE(bs: Bytes): (r: nat)
    ensures r < Pow256(|bs|)
  {
    if bs == [] then 0
    else
      var hi := FromLE(bs[1..]);
      assert hi <= Pow256(|bs| - 1) - 1;
      assert 256 * hi <= 256 * Pow256(|bs| - 1) - 256;
      bs[0] + 256 * hi
  }

  /** Decoding the little-endian bytes of `n` gives back `n`. */
  lemma {:induction false} FromLEToLE(n: nat, k: nat)
    requires n < Pow256(k)
    ensures FromLE(ToLE(n, k)) == n
  {
    if k > 0 {
      DivBound(n, k);
      var bs := ToLE(n, k);
      assert bs[1..] == ToLE(n / 256, k - 1);
      FromLEToLE(n / 256, k - 1);
    }
  }

  /** Encoding the value of `bs` in `|bs|` bytes gives back `bs`. */
  lemma {:induction false} ToLEFromLE(bs: Bytes)
    ensures ToLE(FromLE(bs), |bs|) == bs
  {
    if bs != [] {
      var hi := FromLE(bs[1..]);
      var n := bs[0] + 256 * hi;
      assert n % 256 == bs[0];
      assert n / 256 == hi;
      ToLEFromLE(bs[1..]);
    }
  }
}

=== FILE: decimal.dfy ===
/**
 * Decimal text of unbounded naturals: how wide integers (`u64`, `u128`) are rendered by
 * `toString()` in the JSON form and how `BigInt(...)` reads them back from typed fields.
 */
module Decimal {
  import opened Results

  const DIGITS: string := "0123456789"

  predicate IsDigit(c: char) {
    '0' <= c <= '9'
  }

  predicate AllDigits(s: string) {
    forall i :: 0 <= i < |s| ==> IsDigit(s[i])
  }

  function DigitChar(d: nat): (c: char)
    requires d < 10
    ensures IsDigit(c) && c as int - '0' as int == d
  {
    DIGITS[d]
  }

  /** `n.toString()`: the shortest decimal text of `n` (no sign, no leading zero). */
  function ToDecimal(n: nat): (s: string)
    ensures |s| >= 1 && AllDigits(s)
    ensures s[0] == '0' ==> n == 0
  {
    if n < 10 then [DigitChar(n)] else ToDecimal(n / 10) + [DigitChar(n % 10)]
  }

  /** The value of a string of decimal digits, most significant first. */
  function DigitsValue(s: string): nat
    requires AllDigits(s)
  {
    if s == [] then 0
    else DigitsValue(s[..|s| - 1]) * 10 + (s[|s| - 1] as int - '0' as int)
  }

  /** `BigInt(s)` on a non-empty string of decimal digits; anything else fails. */
  function ParseDecimal(s: string): (r: Option<nat>)
    ensures r.Some? <==> (|s| >= 1 && AllDigits(s))
  {
    if |s| >= 1 && AllDigits(s) then Some(DigitsValue(s)) else None
  }

  /** Reading back the decimal text of `n` gives `n`. */
  lemma {:induction false} ParseToDecimal(n: nat)
    ensures ParseDecimal(ToDecimal(n)) == Some(n)
  {
    var s := ToDecimal(n);
    if n >= 10 {
      ParseToDecimal(n / 10);
      assert s[..|s| - 1] == ToDecimal(n / 10);
      assert s[|s| - 1] == DigitChar(n % 10);
      assert DigitsValue(s) == (n / 10) * 10 + n % 10;
    } else {
      assert DigitsValue(s) == DigitsValue(s[..0]) * 10 + n;
    }
  }

  /** Leading zeros are the only ambiguity: rendering a parsed value gives the input back when it has none. */
  lemma {:induction false} ToDecimalParse(s: string)
    requires |s| >= 1 && AllDigits(s)
    requires s[0] != '0' || |s| == 1
    ensures ToDecimal(DigitsValue(s)) == s
    decreases |s|
  {
    var init := s[..|s| - 1];
    var d := s[|s| - 1] as int - '0' as int;
    if |s| >= 2 {
      assert init[0] == s[0];
      ToDecimalParse(init);
      DigitsValuePositive(init);
      var n := DigitsValue(s);
      assert n == DigitsValue(init) * 10 + d;
      assert n / 10 == DigitsValue(init) && n % 10 == d;
      assert s == init + [s[|s| - 1]];
    }
  }

  /** A digit string that does not start with `0` has a positive value. */
  lemma {:induction false} DigitsValuePositive(s: string)
    requires |s| >= 1 && AllDigits(s) && s[0] != '0'
    ensures DigitsValue(s) >= 1
    decreases |s|
  {
    if |s| >= 2 {
      assert s[..|s| - 1][0] == s[0];
      DigitsValuePositive(s[..|s| - 1]);
    }
  }
}

=== FILE: framework.dfy ===
/**
 * The shared runtime every generated binding calls: type-name gates, reified descriptors
 * and the generic-or-special field decoders for the primitives the bindings use. Helpers
 * whose code is not part of this model (type-name compression and composition, `toBcs`,
 * the type-argument check, `genericToJSON`) and the sibling bindings `ID`, `Bag`, `String`
 * and `Option` are parameters, bundled in `Collaborators`; what the model relies on about
 * them is stated as ghost predicates that the lemmas require.
 */
module Framework {
  import opened Results
  import opened Bytes
  import opened Values
  import opened Bcs
  import Decimal

  /**
   * How one sibling type is decoded from each source representation: the framework's
   * `decodeFromFields`, `decodeFromFieldsWithTypes` and `decodeFromJSONField` applied to
   * that type's reified descriptor.
   */
  datatype FieldDecoders<T> = FieldDecoders(
    fromFields: Value -> Result<T>,
    fromFieldsWithTypes: Value -> Result<T>,
    fromJSONField: Value -> Result<T>)

  /** The collaborators of the bindings whose code is outside the model. */
  datatype Collaborators = Collaborators(
    compress: string -> string,                          // compressSuiType
    compose: (string, seq<string>) -> string,            // composeSuiType
    argsMatch: (FieldsWithTypes, seq<TypeArg>) -> bool,  // assertFieldsWithTypesArgsMatch does not throw
    toBcs: TypeArg -> Codec,                             // toBcs
    genericToJSON: (string, Value) -> Value,             // genericToJSON
    idBcs: Codec,                                        // ID.bcs
    id: FieldDecoders<Value>,                            // decoders for ID.reified()
    bagBcs: Codec,                                       // Bag.bcs
    bag: FieldDecoders<Value>,                           // decoders for Bag.reified()
    bagToJSON: Value -> Value,                           // Bag.prototype.toJSON
    stringBcs: Codec,                                    // ascii String.bcs
    str: FieldDecoders<string>,                          // decoders for String.reified()
    optionBcs: Codec -> Codec,                           // Option.bcs
    option: TypeArg -> FieldDecoders<Value>)             // decoders for Option.reified(T)

  /** `composeSuiType(name)` with no type arguments is the name itself. */
  ghost predicate ComposeNoArgs(fw: Collaborators) {
    forall name :: fw.compose(name, []) == name
  }

  /** The sibling codecs round-trip, and `Option.bcs` preserves that for its element codec. */
  ghost predicate SiblingCodecsLawful(fw: Collaborators) {
    && Lawful(fw.idBcs)
    && Lawful(fw.bagBcs)
    && Lawful(fw.stringBcs)
    && (forall t :: Lawful(fw.toBcs(t)))
    && (forall c :: Lawful(c) ==> Lawful(fw.optionBcs(c)))
  }

  /** An ascii `String` travels through JSON as the plain string. */
  ghost predicate StringJsonIdentity(fw: Collaborators) {
    forall s :: fw.str.fromJSONField(VStr(s)) == Ok(s)
  }

  // ---------------------------------------------------------------- type-name gates

  /** The gate of a non-generic struct: the compressed type string is exactly its name. */
  predicate IsStruct(fw: Collaborators, t: string, name: string) {
    fw.compress(t) == name
  }

  /**
   * The gate of a generic struct: the compressed type string starts with `name<`. Neither the
   * number nor the identity of the type arguments is checked here.
   */
  predicate IsGenericStruct(fw: Collaborators, t: string, name: string) {
    name + "<" <= fw.compress(t)
  }

  /** A generic gate never accepts the bare name, and an exact gate never accepts an instantiation. */
  lemma GenericGateNeedsArguments(fw: Collaborators, t: string, name: string)
    ensures IsStruct(fw, t, name) ==> !IsGenericStruct(fw, t, name)
    ensures IsGenericStruct(fw, t, name) ==> !IsStruct(fw, t, name)
  {
  }

  // ---------------------------------------------------------------- type arguments

  /** `extractType`: the full type string of a reified type argument. */
  function ExtractType(fw: Collaborators, t: TypeArg): string
    decreases t, 1
  {
    fw.compose(t.name, ExtractTypes(fw, t.args))
  }

  function ExtractTypes(fw: Collaborators, ts: seq<TypeArg>): (r: seq<string>)
    ensures |r| == |ts|
    decreases ts, 0
  {
    if ts == [] then [] else [ExtractType(fw, ts[0])] + ExtractTypes(fw, ts[1..])
  }

  /** A type argument without arguments of its own is recorded as its bare name. */
  lemma ExtractTypeNonGeneric(fw: Collaborators, name: string)
    requires ComposeNoArgs(fw)
    ensures ExtractType(fw, TypeArg(name, [])) == name
  {
  }

  // ---------------------------------------------------------------- primitive fields

  /** `decodeFromFieldsGenericOrSpecial('address', v)`: a parsed layout holds unprefixed hex; the binding stores the `0x` form. */
  function AddressFromFields(v: Value): (r: Result<string>)
    ensures r.Ok? <==> v.VStr?
    ensures r.Ok? ==> |r.value| == |v.s| + 2 && r.value[..2] == "0x" && r.value[2..] == v.s
  {
    if v.VStr? then Ok("0x" + v.s) else Err(Malformed("address"))
  }

  /** `decodeFromFieldsWithTypesGenericOrSpecial('address', v)`: typed items already hold the `0x` form. */
  function AddressFromFieldsWithTypes(v: Value): (r: Result<string>)
    ensures r.Ok? <==> v.VStr?
    ensures r.Ok? ==> VStr(r.value) == v
  {
    if v.VStr? then Ok(v.s) else Err(Malformed("address"))
  }

  /** A boolean `bool` field is taken as it is, from either representation; a value of any other kind is refused. */
  function BoolField(v: Value): (r: Result<bool>)
    ensures r.Ok? <==> v.VBool?
    ensures r.Ok? ==> VBool(r.value) == v
  {
    if v.VBool? then Ok(v.b) else Err(Malformed("bool"))
  }

  /**
   * `u128` fields go through `BigInt(v)`: a number or a decimal string, from either
   * representation; a value outside the 128-bit range is refused.
   */
  function U128Field(v: Value): (r: Result<U128>)
    ensures v.VNum? ==> (r.Ok? <==> 0 <= v.n < Pow256(U128_WIDTH))
    ensures v.VStr? ==>
      (r.Ok? <==> Decimal.ParseDecimal(v.s).Some? && Decimal.ParseDecimal(v.s).value < Pow256(U128_WIDTH))
    ensures r.Ok? ==> v == VNum(r.value) || (v.VStr? && Decimal.ParseDecimal(v.s) == Some(r.value as nat))
    ensures !v.VNum? && !v.VStr? ==> r.Err?
  {
    match v
    case VNum(n) => if 0 <= n < Pow256(U128_WIDTH) then Ok(n) else Err(Malformed("u128"))
    case VStr(s) =>
      (match Decimal.ParseDecimal(s)
       case Some(n) => if n < Pow256(U128_WIDTH) then Ok(n) else Err(Malformed("u128"))
       case None => Err(Malformed("u128")))
    case _ => Err(Malformed("u128"))
  }

  /** The decimal text `toString()` gives a `u128` is read back to the same number. */
  lemma U128FieldReadsDecimal(n: U128)
    ensures U128Field(VStr(Decimal.ToDecimal(n))) == Ok(n)
  {
    Decimal.ParseToDecimal(n);
  }

  // ---------------------------------------------------------------- reified descriptors

  /** What `reified()` returns in the bindings of the `sui-chain` generator. */
  datatype Reified<T> = Reified(
    typeName: string,
    typeArgs: seq<TypeArg>,
    bcs: Codec,
    fromFields: Value -> Result<T>,
    fromFieldsWithTypes: FieldsWithTypes -> Result<T>,
    fromBcs: Bytes -> Result<T>)

  /** What `reified()` returns in the class-based bindings (`StructClassReified`). */
  datatype StructClassReified<T> = StructClassReified(
    typeName: string,
    fullTypeName: string,
    typeArgs: seq<TypeArg>,
    bcs: Codec,
    fromFields: Value -> Result<T>,
    fromFieldsWithTypes: FieldsWithTypes -> Result<T>,
    fromBcs: Bytes -> Result<T>,
    fromJSONField: Value -> Result<T>,
    fromJSON: Value -> Result<T>,
    make: string -> T,
    kind: string)
}

=== FILE: hex.dfy ===
/**
 * Base 16 encoding as in section 8 of RFC 4648, used by the address transform of the
 * binary layouts: the writer turns a hex string into bytes, the reader turns bytes into
 * lowercase hex. Decoding is case-insensitive and accepts an optional `0x` prefix, the
 * canonical textual form of Sui addresses.
 */
module Hex {
  import opened Bytes
  import opened Results

  const LOWER_DIGITS: string := "0123456789abcdef"

  predicate IsLowerHexDigit(c: char) {
    ('0' <= c <= '9') || ('a' <= c <= 'f')
  }

  predicate IsLowerHex(s: string) {
    forall i :: 0 <= i < |s| ==> IsLowerHexDigit(s[i])
  }

  /** The value of one base 16 digit in either case, or None for any other character. */
  function DigitValue(c: char): (r: Option<nat>)
    ensures r.Some? ==> r.value < 16
    ensures IsLowerHexDigit(c) ==> r.Some? && LOWER_DIGITS[r.value] == c
  {
    if '0' <= c <= '9' then Some(c as int - '0' as int)
    else if 'a' <= c <= 'f' then Some(c as int - 'a' as int + 10)
    else if 'A' <= c <= 'F' then Some(c as int - 'A' as int + 10)
    else None
  }

  function ByteToHex(b: Byte): (s: string)
    ensures |s| == 2 && IsLowerHex(s)
  {
    [LOWER_DIGITS[b / 16], LOWER_DIGITS[b % 16]]
  }

  /** Two lowercase digits per byte, most significant nibble first, no prefix. */
  function ToHex(bs: Bytes): (s: string)
    ensures |s| == 2 * |bs|
    ensures IsLowerHex(s)
  {
    if bs == [] then "" else ByteToHex(bs[0]) + ToHex(bs[1..])
  }

  /** Decodes an even number of hex digits; odd length or a non-digit fails. */
  function FromHexDigits(s: string): (r: Option<Bytes>)
    ensures r.Some? ==> 2 * |r.value| == |s|
    decreases |s|
  {
    if s == [] then Some([])
    else if |s| == 1 then None
    else match (DigitValue(s[0]), DigitValue(s[1]), FromHexDigits(s[2..]))
      case (Some(hi), Some(lo), Some(tail)) => Some([hi * 16 + lo] + tail)
      case _ => None
  }

  /** `fromHEX`: strips one leading `0x`, then decodes the digits. */
  function FromHex(s: string): Option<Bytes> {
    if |s| >= 2 && s[..2] == "0x" then FromHexDigits(s[2..]) else FromHexDigits(s)
  }

  /** The two hex digits of a byte read back as its high and low nibbles. */
  lemma ByteToHexDigits(b: Byte)
    ensures DigitValue(ByteToHex(b)[0]) == Some(b / 16)
    ensures DigitValue(ByteToHex(b)[1]) == Some(b % 16)
  {
  }

  /** The high and low nibbles of a byte recombine to the byte. */
  lemma NibblesRecombine(b: Byte)
    ensures (b / 16) * 16 + b % 16 == b
  {
  }

  /** Decoding the hex of `bs` (without prefix) gives back `bs`. */
  lemma {:induction false} FromHexDigitsToHex(bs: Bytes)
    ensures FromHexDigits(ToHex(bs)) == Some(bs)
  {
    if bs != [] {
      var s := ToHex(bs);
      var h := ByteToHex(bs[0]);
      var t := ToHex(bs[1..]);
      assert s == h + t;
      assert s[2..] == t;
      assert s[0] == h[0] && s[1] == h[1];
      ByteToHexDigits(bs[0]);
      FromHexDigitsToHex(bs[1..]);
      NibblesRecombine(bs[0]);
      assert FromHexDigits(s) == Some([bs[0]] + bs[1..]);
      assert [bs[0]] + bs[1..] == bs;
    }
  }

  /** Character `i` of the hex text is the high-nibble digit of byte `i / 2` when `i` is even, its low-nibble digit when odd. */
  lemma {:induction false} ToHexIndex(bs: Bytes, i: nat)
    requires i < 2 * |bs|
    ensures ToHex(bs)[i] == LOWER_DIGITS[if i % 2 == 0 then bs[i / 2] / 16 else bs[i / 2] % 16]
  {
    var h := ByteToHex(bs[0]);
    var t := ToHex(bs[1..]);
    assert ToHex(bs) == h + t;
    if i >= 2 {
      ToHexIndex(bs[1..], i - 2);
      assert ToHex(bs)[i] == t[i - 2];
      assert bs[1..][(i - 2) / 2] == bs[i / 2];
    }
  }

  /** `fromHEX(toHEX(b)) == b`: the address transform loses nothing. */
  lemma FromHexToHex(bs: Bytes)
    ensures FromHex(ToHex(bs)) == Some(bs)
  {
    FromHexDigitsToHex(bs);
    var s := ToHex(bs);
    if |s| >= 2 {
      assert IsLowerHexDigit(s[1]);
      assert s[..2] != "0x";
    }
  }

  /** Lowercase hex digits are exactly what ToHex produces: decoding then encoding them is the identity. */
  lemma {:induction false} ToHexFromHexDigits(s: string)
    requires IsLowerHex(s)
    requires FromHexDigits(s).Some?
    ensures ToHex(FromHexDigits(s).value) == s
  {
    if s != [] {
      var hi := DigitValue(s[0]).value;
      var lo := DigitValue(s[1]).value;
      var tail := FromHexDigits(s[2..]).value;
      assert IsLowerHex(s[2..]) by {
        forall i | 0 <= i < |s[2..]| ensures IsLowerHexDigit(s[2..][i]) {
          assert s[2..][i] == s[i + 2];
        }
      }
      ToHexFromHexDigits(s[2..]);
      var b: Byte := hi * 16 + lo;
      assert b / 16 == hi && b % 16 == lo;
      assert ByteToHex(b) == s[..2];
      assert FromHexDigits(s).value == [b] + tail;
      assert s == s[..2] + s[2..];
    }
  }

  /** A string decodes as base 16 exactly when it has even length and only hex digits (either case). */
  lemma {:induction false} FromHexDigitsAccepts(s: string)
    ensures FromHexDigits(s).Some? <==>
      (|s| % 2 == 0 && forall i :: 0 <= i < |s| ==> DigitValue(s[i]).Some?)
    decreases |s|
  {
    if |s| >= 2 {
      FromHexDigitsAccepts(s[2..]);
      if FromHexDigits(s).Some? {
        forall i | 0 <= i < |s| ensures DigitValue(s[i]).Some? {
          if i >= 2 {
            assert s[i] == s[2..][i - 2];
          }
        }
      } else if |s| % 2 == 0 && DigitValue(s[0]).Some? && DigitValue(s[1]).Some? {
        var i :| 2 <= i < |s| && DigitValue(s[i]).None? by {
          assert !(forall j :: 0 <= j < |s[2..]| ==> DigitValue(s[2..][j]).Some?);
          var j :| 0 <= j < |s[2..]| && DigitValue(s[2..][j]).None?;
          assert s[2..][j] == s[j + 2];
        }
      }
    }
  }
}

=== FILE: kiosk_extension.dfy ===
/**
 * Bindings of the Move module `0x2::kiosk_extension`: the non-generic `Extension` (a `Bag`,
 * a `u128` permission mask and an enabled flag) and `ExtensionKey<phantom T>`, whose type
 * parameter exists only in its type name and contributes no bytes.
 */
module KioskExtensionStructs {
  import opened Results
  import opened Bytes
  import opened Values
  import opened Bcs
  import opened Framework
  import Decimal

  // ================================================================ Extension

  const EXTENSION_TYPE_NAME: string := "0x2::kiosk_extension::Extension"
  const EXTENSION_NUM_TYPE_PARAMS: nat := 0

  /** `isExtension`: the compressed type string is exactly `0x2::kiosk_extension::Extension`. */
  predicate IsExtension(fw: Collaborators, t: string)
    ensures IsExtension(fw, t) <==> fw.compress(t) == EXTENSION_TYPE_NAME
    ensures fw.compress(t) == EXTENSION_TYPE_NAME ==> IsExtension(fw, t)
    ensures IsExtension(fw, t) ==> '<' !in fw.compress(t) && |fw.compress(t)| == |EXTENSION_TYPE_NAME|
  {
    IsStruct(fw, t, EXTENSION_TYPE_NAME)
  }

  /** An `Extension`: its decoded `Bag`, the permission bits and whether it is enabled. */
  datatype Extension = Extension(storage: Value, permissions: U128, isEnabled: bool)

  /** `Extension.bcs`: `storage` (Bag), then `permissions` (u128), then `is_enabled` (bool). */
  function ExtensionBcs(fw: Collaborators): (c: Codec)
    ensures Lawful(fw.bagBcs) ==> Lawful(c)
  {
    var fs := [Field("storage", fw.bagBcs), Field("permissions", U128Codec), Field("is_enabled", BoolCodec)];
    U128Lawful();
    BoolLawful();
    StructLawful("Extension", fs);
    Struct("Extension", fs)
  }

  /**
   * What `Extension.bcs` parses: the Bag reads from the front of the bytes, and exactly 17 bytes
   * are left after it, 16 little-endian permission bytes and one flag byte that is 0 or 1.
   */
  lemma ExtensionParse(fw: Collaborators, data: Bytes)
    ensures Parse(ExtensionBcs(fw), data).Ok? ==>
      && fw.bagBcs.read(data).Some?
      && |fw.bagBcs.read(data).value.1| == U128_WIDTH + 1
      && fw.bagBcs.read(data).value.1[U128_WIDTH] <= 1
      && Parse(ExtensionBcs(fw), data).value == ExtensionFieldsValue(
           fw.bagBcs.read(data).value.0,
           FromLE(fw.bagBcs.read(data).value.1[..U128_WIDTH]),
           fw.bagBcs.read(data).value.1[U128_WIDTH] == 1)
  {
    var fs := [Field("storage", fw.bagBcs), Field("permissions", U128Codec), Field("is_enabled", BoolCodec)];
    if Parse(ExtensionBcs(fw), data).Ok? {
      var (bag, after) := fw.bagBcs.read(data).value;
      assert fs[1..] == [Field("permissions", U128Codec), Field("is_enabled", BoolCodec)];
      var (m1, rest) := ReadFields(fs[1..], after).value;
      assert ReadFields(fs, data) == Some((m1["storage" := bag], rest));
      assert rest == [];
      ExtensionTailParse(after);
    }
  }

  /** The flag field, when nothing may follow it, reads exactly one byte that is 0 or 1. */
  lemma ExtensionFlagParse(afterPerm: Bytes)
    requires ReadFields([Field("is_enabled", BoolCodec)], afterPerm).Some?
    requires ReadFields([Field("is_enabled", BoolCodec)], afterPerm).value.1 == []
    ensures |afterPerm| == 1 && afterPerm[0] <= 1
    ensures ReadFields([Field("is_enabled", BoolCodec)], afterPerm).value.0 == map["is_enabled" := VBool(afterPerm[0] == 1)]
  {
    var fs := [Field("is_enabled", BoolCodec)];
    var (flag, afterFlag) := BoolCodec.read(afterPerm).value;
    assert ReadFields(fs[1..], afterFlag) == Some((map[], afterFlag));
  }

  /** After the Bag, the permission and flag fields read exactly 17 bytes when nothing may follow them. */
  lemma ExtensionTailParse(after: Bytes)
    requires ReadFields([Field("permissions", U128Codec), Field("is_enabled", BoolCodec)], after).Some?
    requires ReadFields([Field("permissions", U128Codec), Field("is_enabled", BoolCodec)], after).value.1 == []
    ensures |after| == U128_WIDTH + 1 && after[U128_WIDTH] <= 1
    ensures ReadFields([Field("permissions", U128Codec), Field("is_enabled", BoolCodec)], after).value.0 ==
      map["is_enabled" := VBool(after[U128_WIDTH] == 1), "permissions" := VNum(FromLE(after[..U128_WIDTH]))]
  {
    var fs := [Field("permissions", U128Codec), Field("is_enabled", BoolCodec)];
    var afterPerm := after[U128_WIDTH..];
    assert U128Codec.read(after) == Some((VNum(FromLE(after[..U128_WIDTH])), afterPerm));
    assert fs[1..] == [Field("is_enabled", BoolCodec)];
    ExtensionFlagParse(afterPerm);
    assert afterPerm[0] == after[U128_WIDTH];
  }

  /** `Extension.fromFields`: the on-chain key `is_enabled` becomes `isEnabled`; the others keep their names. */
  function ExtensionFromFields(fw: Collaborators, fields: Value): (r: Result<Extension>)
    ensures r.Ok? <==>
      && fw.bag.fromFields(Get(fields, "storage")).Ok?
      && U128Field(Get(fields, "permissions")).Ok?
      && Get(fields, "is_enabled").VBool?
    ensures r.Ok? ==>
      && Ok(r.value.storage) == fw.bag.fromFields(Get(fields, "storage"))
      && Ok(r.value.permissions) == U128Field(Get(fields, "permissions"))
      && VBool(r.value.isEnabled) == Get(fields, "is_enabled")
  {
    var storage :- fw.bag.fromFields(Get(fields, "storage"));
    var permissions :- U128Field(Get(fields, "permissions"));
    var isEnabled :- BoolField(Get(fields, "is_enabled"));
    Ok(Extension(storage, permissions, isEnabled))
  }

  /** `Extension.fromFieldsWithTypes`: nothing is decoded unless the type passes `isExtension`. */
  function ExtensionFromFieldsWithTypes(fw: Collaborators, item: FieldsWithTypes): (r: Result<Extension>)
    ensures !IsExtension(fw, item.typ) ==> r == Err(NotThisType(EXTENSION_TYPE_NAME, item.typ))
    ensures r.Ok? <==>
      && IsExtension(fw, item.typ)
      && fw.bag.fromFieldsWithTypes(Get(item.fields, "storage")).Ok?
      && U128Field(Get(item.fields, "permissions")).Ok?
      && Get(item.fields, "is_enabled").VBool?
    ensures r.Ok? ==>
      && Ok(r.value.storage) == fw.bag.fromFieldsWithTypes(Get(item.fields, "storage"))
      && Ok(r.value.permissions) == U128Field(Get(item.fields, "permissions"))
      && VBool(r.value.isEnabled) == Get(item.fields, "is_enabled")
  {
    if !IsExtension(fw, item.typ) then Err(NotThisType(EXTENSION_TYPE_NAME, item.typ))
    else
      var storage :- fw.bag.fromFieldsWithTypes(Get(item.fields, "storage"));
      var permissions :- U128Field(Get(item.fields, "permissions"));
      var isEnabled :- BoolField(Get(item.fields, "is_enabled"));
      Ok(Extension(storage, permissions, isEnabled))
  }

  /**
   * `Extension.fromBcs`: parses with `Extension.bcs`, then `fromFields`. `storage` is the Bag
   * decoding of the front of the bytes; the permission mask is the little-endian value of the
   * next 16 bytes and the flag is the last byte.
   */
  function ExtensionFromBcs(fw: Collaborators, data: Bytes): (r: Result<Extension>)
    ensures r.Ok? ==>
      && fw.bagBcs.read(data).Some?
      && Ok(r.value.storage) == fw.bag.fromFields(fw.bagBcs.read(data).value.0)
      && |fw.bagBcs.read(data).value.1| == U128_WIDTH + 1
      && r.value.permissions as nat == FromLE(fw.bagBcs.read(data).value.1[..U128_WIDTH])
      && r.value.isEnabled == (fw.bagBcs.read(data).value.1[U128_WIDTH] == 1)
  {
    ExtensionParse(fw, data);
    var fields :- Parse(ExtensionBcs(fw), data);
    ExtensionFromFields(fw, fields)
  }

  /** `Extension.toJSON`: the Bag's own JSON, `permissions` as decimal text without leading zeros, `isEnabled` unchanged. */
  function ExtensionToJSON(fw: Collaborators, e: Extension): (j: Value)
    ensures j.VObj? && j.fields.Keys == {"storage", "permissions", "isEnabled"}
    ensures Get(j, "storage") == fw.bagToJSON(e.storage)
    ensures Get(j, "permissions").VStr? && Decimal.AllDigits(Get(j, "permissions").s)
    ensures Decimal.ParseDecimal(Get(j, "permissions").s) == Some(e.permissions as nat)
    ensures |Get(j, "permissions").s| >= 1 &&
      (Get(j, "permissions").s[0] == '0' ==> Get(j, "permissions").s == "0")
    ensures Get(j, "isEnabled") == VBool(e.isEnabled)
  {
    Decimal.ParseToDecimal(e.permissions);
    VObj(map[
      "storage" := fw.bagToJSON(e.storage),
      "permissions" := VStr(Decimal.ToDecimal(e.permissions)),
      "isEnabled" := VBool(e.isEnabled)])
  }

  /** The JSON text of `permissions` decodes back to the same `u128` through the typed-field decoder. */
  lemma ExtensionPermissionsJsonReadsBack(fw: Collaborators, e: Extension)
    ensures U128Field(Get(ExtensionToJSON(fw, e), "permissions")) == Ok(e.permissions)
  {
    U128FieldReadsDecimal(e.permissions);
  }

  /** `Extension.reified()`. */
  function ExtensionReified(fw: Collaborators): (r: Reified<Extension>)
    ensures r.typeName == EXTENSION_TYPE_NAME
    ensures |r.typeArgs| == EXTENSION_NUM_TYPE_PARAMS
    ensures r.bcs == ExtensionBcs(fw)
    ensures forall fields :: r.fromFields(fields) == ExtensionFromFields(fw, fields)
    ensures forall item :: r.fromFieldsWithTypes(item) == ExtensionFromFieldsWithTypes(fw, item)
    ensures forall data :: r.fromBcs(data) == ExtensionFromBcs(fw, data)
  {
    Reified(
      EXTENSION_TYPE_NAME,
      [],
      ExtensionBcs(fw),
      fields => ExtensionFromFields(fw, fields),
      item => ExtensionFromFieldsWithTypes(fw, item),
      data => ExtensionFromBcs(fw, data))
  }

  /** The encoding of an `Extension` is the Bag's bytes, then 16 little-endian permission bytes, then one flag byte. */
  lemma ExtensionLayout(fw: Collaborators, storage: Value, bagBytes: Bytes, permissions: U128, isEnabled: bool)
    requires fw.bagBcs.write(storage) == Some(bagBytes)
    ensures ExtensionBcs(fw).write(ExtensionFieldsValue(storage, permissions, isEnabled)) ==
      Some(bagBytes + ToLE(permissions, U128_WIDTH) + [if isEnabled then 1 else 0])
  {
    var v := ExtensionFieldsValue(storage, permissions, isEnabled);
    var fs := [Field("storage", fw.bagBcs), Field("permissions", U128Codec), Field("is_enabled", BoolCodec)];
    var flag: Bytes := [if isEnabled then 1 else 0];
    var le := ToLE(permissions, U128_WIDTH);
    assert Get(v, "storage") == storage;
    assert Get(v, "permissions") == VNum(permissions);
    assert Get(v, "is_enabled") == VBool(isEnabled);
    assert WriteFields(fs[3..], v) == Some([]);
    assert flag + [] == flag;
    assert WriteFields(fs[2..], v) == Some(flag);
    assert WriteFields(fs[1..], v) == Some(le + flag);
    assert WriteFields(fs, v) == Some(bagBytes + (le + flag));
    assert bagBytes + (le + flag) == bagBytes + le + flag;
  }

  /** The field object `Extension.bcs` writes and reads: on-chain (snake_case) keys. */
  function ExtensionFieldsValue(storage: Value, permissions: U128, isEnabled: bool): Value {
    VObj(map["storage" := storage, "permissions" := VNum(permissions), "is_enabled" := VBool(isEnabled)])
  }

  /**
   * Encoding then `fromBcs`: when the Bag value reads back exactly, decoding the encoding
   * restores `permissions` and `isEnabled` and decodes `storage` with the Bag decoders.
   */
  lemma ExtensionFromBcsRoundTrip(fw: Collaborators, storage: Value, permissions: U128, isEnabled: bool)
    requires ReadsBackExactly(fw.bagBcs, storage)
    ensures ExtensionBcs(fw).write(ExtensionFieldsValue(storage, permissions, isEnabled)).Some?
    ensures ExtensionFromBcs(fw, ExtensionBcs(fw).write(ExtensionFieldsValue(storage, permissions, isEnabled)).value) ==
      (match fw.bag.fromFields(storage)
       case Ok(s) => Ok(Extension(s, permissions, isEnabled))
       case Err(e) => Err(e))
  {
    var v := ExtensionFieldsValue(storage, permissions, isEnabled);
    var fs := [Field("storage", fw.bagBcs), Field("permissions", U128Codec), Field("is_enabled", BoolCodec)];
    U128ReadsBack(permissions);
    BoolReadsBack(isEnabled);
    assert KeySet(fs) == {"storage", "permissions", "is_enabled"} by {
      assert fs[0].key == "storage" && fs[1].key == "permissions" && fs[2].key == "is_enabled";
    }
    StructReadsBack("Extension", fs, v.fields);
    ParseExact(ExtensionBcs(fw), v);
  }

  // ================================================================ ExtensionKey

  const EXTENSION_KEY_TYPE_NAME: string := "0x2::kiosk_extension::ExtensionKey"
  const EXTENSION_KEY_NUM_TYPE_PARAMS: nat := 1

  /** `isExtensionKey`: the compressed type string is an instantiation `0x2::kiosk_extension::ExtensionKey<...>`. */
  predicate IsExtensionKey(fw: Collaborators, t: string)
    ensures IsExtensionKey(fw, t) <==>
      && |fw.compress(t)| > |EXTENSION_KEY_TYPE_NAME|
      && fw.compress(t)[..|EXTENSION_KEY_TYPE_NAME|] == EXTENSION_KEY_TYPE_NAME
      && fw.compress(t)[|EXTENSION_KEY_TYPE_NAME|] == '<'
    ensures IsExtensionKey(fw, t) ==> fw.compress(t) != EXTENSION_KEY_TYPE_NAME
  {
    IsGenericStruct(fw, t, EXTENSION_KEY_TYPE_NAME)
  }

  /** No type string passes both gates of this module, and `isExtensionKey` refuses the bare name. */
  lemma ExtensionGatesDisjoint(fw: Collaborators, t: string)
    ensures !(IsExtension(fw, t) && IsExtensionKey(fw, t))
    ensures fw.compress(t) == EXTENSION_KEY_TYPE_NAME ==> !IsExtensionKey(fw, t)
  {
  }

  /** An `ExtensionKey<T>`: the recorded full name of the phantom `T` and the placeholder field. */
  datatype ExtensionKey = ExtensionKey(typeArg: string, dummyField: bool)

  /** `ExtensionKey.bcs`: a single `dummy_field` byte; it takes no type argument. */
  function ExtensionKeyBcs(): (c: Codec)
    ensures Lawful(c)
  {
    BoolLawful();
    StructLawful("ExtensionKey", [Field("dummy_field", BoolCodec)]);
    Struct("ExtensionKey", [Field("dummy_field", BoolCodec)])
  }

  /** `ExtensionKey.bcs` parses exactly the one-byte inputs `[0]` and `[1]`, to the flag the byte encodes. */
  lemma ExtensionKeyParse(data: Bytes)
    ensures Parse(ExtensionKeyBcs(), data).Ok? <==> (data == [0] || data == [1])
    ensures Parse(ExtensionKeyBcs(), data).Ok? ==>
      Parse(ExtensionKeyBcs(), data).value == VObj(map["dummy_field" := VBool(data == [1])])
  {
    var fs := [Field("dummy_field", BoolCodec)];
    if |data| >= 1 && data[0] <= 1 {
      assert ReadFields(fs[1..], data[1..]) == Some((map[], data[1..]));
      var m := map["dummy_field" := VBool(data[0] == 1)];
      assert ReadFields(fs, data) == Some((m, data[1..]));
      if |data| == 1 {
        assert data == [0] || data == [1];
      } else {
        assert Parse(ExtensionKeyBcs(), data).Err?;
      }
    } else {
      assert ReadFields(fs, data).None?;
    }
  }

  /** `ExtensionKey.new`: records the full name of the type argument and stores the flag. */
  function ExtensionKeyNew(fw: Collaborators, typeArg: TypeArg, dummyField: bool): (k: ExtensionKey)
    ensures k.typeArg == ExtractType(fw, typeArg) && k.dummyField == dummyField
  {
    ExtensionKey(ExtractType(fw, typeArg), dummyField)
  }

  /** `ExtensionKey.fromFields`: the on-chain key `dummy_field` becomes `dummyField`. */
  function ExtensionKeyFromFields(fw: Collaborators, typeArg: TypeArg, fields: Value): (r: Result<ExtensionKey>)
    ensures r.Ok? <==> Get(fields, "dummy_field").VBool?
    ensures r.Ok? ==> r.value.typeArg == ExtractType(fw, typeArg) && VBool(r.value.dummyField) == Get(fields, "dummy_field")
  {
    var dummyField :- BoolField(Get(fields, "dummy_field"));
    Ok(ExtensionKeyNew(fw, typeArg, dummyField))
  }

  /** `ExtensionKey.fromFieldsWithTypes`: nothing is decoded unless the type passes `isExtensionKey` and its arguments match. */
  function ExtensionKeyFromFieldsWithTypes(fw: Collaborators, typeArg: TypeArg, item: FieldsWithTypes): (r: Result<ExtensionKey>)
    ensures !IsExtensionKey(fw, item.typ) ==> r == Err(NotThisType(EXTENSION_KEY_TYPE_NAME, item.typ))
    ensures r.Ok? <==>
      IsExtensionKey(fw, item.typ) && fw.argsMatch(item, [typeArg]) && Get(item.fields, "dummy_field").VBool?
    ensures r.Ok? ==> r.value.typeArg == ExtractType(fw, typeArg) && VBool(r.value.dummyField) == Get(item.fields, "dummy_field")
  {
    if !IsExtensionKey(fw, item.typ) then Err(NotThisType(EXTENSION_KEY_TYPE_NAME, item.typ))
    else if !fw.argsMatch(item, [typeArg]) then Err(TypeArgsMismatch(item.typ))
    else
      var dummyField :- BoolField(Get(item.fields, "dummy_field"));
      Ok(ExtensionKeyNew(fw, typeArg, dummyField))
  }

  /** `ExtensionKey.fromBcs`: parses with the one `ExtensionKey.bcs`, then `fromFields`. */
  function ExtensionKeyFromBcs(fw: Collaborators, typeArg: TypeArg, data: Bytes): (r: Result<ExtensionKey>)
    ensures r.Ok? <==> (data == [0] || data == [1])
    ensures r.Ok? ==> r.value == ExtensionKey(ExtractType(fw, typeArg), data == [1])
  {
    ExtensionKeyParse(data);
    var fields :- Parse(ExtensionKeyBcs(), data);
    ExtensionKeyFromFields(fw, typeArg, fields)
  }

  /** `ExtensionKey.toJSON`: `$typeArg` and `dummyField`. */
  function ExtensionKeyToJSON(k: ExtensionKey): (j: Value)
    ensures j.VObj? && j.fields.Keys == {"$typeArg", "dummyField"}
    ensures Get(j, "$typeArg") == VStr(k.typeArg) && Get(j, "dummyField") == VBool(k.dummyField)
  {
    VObj(map["$typeArg" := VStr(k.typeArg), "dummyField" := VBool(k.dummyField)])
  }

  /** `ExtensionKey.reified(T)`: one type argument, and the same codec whatever `T` is. */
  function ExtensionKeyReified(fw: Collaborators, t: TypeArg): (r: Reified<ExtensionKey>)
    ensures r.typeName == EXTENSION_KEY_TYPE_NAME
    ensures |r.typeArgs| == EXTENSION_KEY_NUM_TYPE_PARAMS && r.typeArgs[0] == t
    ensures r.bcs == ExtensionKeyBcs()
    ensures forall fields :: r.fromFields(fields) == ExtensionKeyFromFields(fw, t, fields)
    ensures forall item :: r.fromFieldsWithTypes(item) == ExtensionKeyFromFieldsWithTypes(fw, t, item)
    ensures forall data :: r.fromBcs(data) == ExtensionKeyFromBcs(fw, t, data)
  {
    Reified(
      EXTENSION_KEY_TYPE_NAME,
      [t],
      ExtensionKeyBcs(),
      fields => ExtensionKeyFromFields(fw, t, fields),
      item => ExtensionKeyFromFieldsWithTypes(fw, t, item),
      data => ExtensionKeyFromBcs(fw, t, data))
  }

  /**
   * Phantom erasure: the codec of `ExtensionKey<T>` does not depend on `T`, and the same
   * bytes decode to the same flag under any two type arguments.
   */
  lemma ExtensionKeyPhantomErasure(fw: Collaborators, t: TypeArg, u: TypeArg, data: Bytes)
    ensures ExtensionKeyReified(fw, t).bcs == ExtensionKeyReified(fw, u).bcs
    ensures ExtensionKeyFromBcs(fw, t, data).Ok? <==> ExtensionKeyFromBcs(fw, u, data).Ok?
    ensures ExtensionKeyFromBcs(fw, t, data).Ok? ==>
      ExtensionKeyFromBcs(fw, t, data).value.dummyField == ExtensionKeyFromBcs(fw, u, data).value.dummyField
  {
  }

  /** `{dummy_field: true}` under the type argument `0x2::kiosk::Kiosk` decodes to a key for `Kiosk` whose flag is set. */
  lemma KioskKeyDecodes(fw: Collaborators)
    requires ComposeNoArgs(fw)
    ensures ExtensionKeyFromFields(fw, TypeArg("0x2::kiosk::Kiosk", []), VObj(map["dummy_field" := VBool(true)]))
      == Ok(ExtensionKey("0x2::kiosk::Kiosk", true))
    ensures ExtensionKeyFromBcs(fw, TypeArg("0x2::kiosk::Kiosk", []), [1])
      == Ok(ExtensionKey("0x2::kiosk::Kiosk", true))
  {
    ExtractTypeNonGeneric(fw, "0x2::kiosk::Kiosk");
  }
}

=== FILE: results.dfy ===
/** Failure-compatible wrappers shared by every decoder of the model. */
module Results {

  /** A present or absent value, used for codec reads and partial parses. */
  datatype Option<+T> = None | Some(value: T)

  /** The ways a decode path can refuse its input. Messages are not modelled. */
  datatype DecodeError =
    | NotThisType(expected: string, found: string)   // an `isX` gate rejected the type string
    | TypeArgsMismatch(found: string)                // type arguments of a typed item disagree
    | Malformed(expected: string)                    // a field holds a value of the wrong kind
    | CodecParseError                                // the bytes do not follow the layout
    | TrailingBytes(count: nat)                      // the layout ended before the input did
    | NotAMoveObject                                 // parsed data of a package, not an object
    | NotThisJson(expected: string)                  // the JSON `$typeName` is another type

  /** Either a decoded value or the first error met; usable with `:-`. */
  datatype Result<+T> = Ok(value: T) | Err(error: DecodeError) {

    predicate IsFailure() {
      Err?
    }

    function PropagateFailure<U>(): Result<U>
      requires Err?
    {
      Err(error)
    }

    function Extract(): T
      requires Ok?
    {
      value
    }
  }
}

=== FILE: scenarios.dfy ===
/**
 * One concrete choice of the collaborators, showing that every law the bindings' lemmas
 * assume can hold at once, and decoding examples worked through under it.
 * `ID` follows its Move layout (`{bytes: address}`) and `Option<T>` the single presence byte
 * of BCS; the collaborators the scenarios do not exercise (Bag, String) refuse every input.
 */
module Scenarios {
  import opened Results
  import opened Bytes
  import opened Values
  import opened Bcs
  import opened Framework
  import opened BorrowStructs
  import opened KioskExtensionStructs
  import Hex

  /** A codec that writes nothing and reads nothing; it is lawful because it never succeeds. */
  const Refusing: Codec := Codec("refused", v => None, input => None)

  lemma RefusingLawful()
    ensures Lawful(Refusing)
  {
  }

  // ---------------------------------------------------------------- ID

  /** `ID.bcs`: the struct `{bytes: address}`. */
  const IdBcs: Codec := Struct("ID", [Field("bytes", AddressCodec)])

  /** An `ID` instance is the object holding its `0x` address. */
  function IdFromFields(v: Value): Result<Value> {
    var b :- AddressFromFields(Get(v, "bytes"));
    Ok(VObj(map["bytes" := VStr(b)]))
  }

  function IdFromFieldsWithTypes(v: Value): Result<Value> {
    var b :- AddressFromFieldsWithTypes(Get(v, "bytes"));
    Ok(VObj(map["bytes" := VStr(b)]))
  }

  lemma IdLawful()
    ensures Lawful(IdBcs)
  {
    AddressLawful();
    var fs := [Field("bytes", AddressCodec)];
    assert AllLawful(fs);
    StructLawful("ID", fs);
  }

  // ---------------------------------------------------------------- Option

  function OptionWrite(c: Codec, v: Value): Option<Bytes> {
    if v == VArr([]) then Some([0])
    else if v.VArr? && |v.items| == 1 then
      match c.write(v.items[0])
      case Some(bs) => Some([1] + bs)
      case None => None
    else None
  }

  function OptionRead(c: Codec, input: Bytes): Option<(Value, Bytes)> {
    if |input| >= 1 && input[0] == 0 then Some((VArr([]), input[1..]))
    else if |input| >= 1 && input[0] == 1 then
      match c.read(input[1..])
      case Some((x, rest)) => Some((VArr([x]), rest))
      case None => None
    else None
  }

  /** `Option<T>`: byte 0 for none, byte 1 followed by the encoding of the value for some. */
  function OptionBcs(c: Codec): Codec {
    Codec("Option<" + c.name + ">", v => OptionWrite(c, v), input => OptionRead(c, input))
  }

  /** The option codec round-trips whenever its element codec does. */
  lemma OptionLawful(c: Codec)
    requires Lawful(c)
    ensures Lawful(OptionBcs(c))
  {
    var o := OptionBcs(c);
    forall v, rest ensures ConsumesWritten(o, v, rest) {
      if OptionWrite(c, v).Some? && v != VArr([]) {
        var x := v.items[0];
        var bs := c.write(x).value;
        assert ConsumesWritten(c, x, rest);
        assert ([1] + bs + rest)[1..] == bs + rest;
      } else if v == VArr([]) {
        assert ([0] + rest)[1..] == rest;
      }
    }
    forall input ensures RewritesRead(o, input) {
      if |input| >= 1 && input[0] == 1 && c.read(input[1..]).Some? {
        assert RewritesRead(c, input[1..]);
        assert input == [1] + input[1..];
      } else if |input| >= 1 && input[0] == 0 {
        assert input == [0] + input[1..];
      }
    }
  }

  /** `Option<T>` fields decode to the value itself when present and to `null` when absent. */
  function OptionFromFields(v: Value): Result<Value> {
    if v == VArr([]) then Ok(VNull)
    else if v.VArr? && |v.items| == 1 then Ok(v.items[0])
    else Err(Malformed("Option"))
  }

  // ---------------------------------------------------------------- the instance

  function JoinArgs(args: seq<string>): string {
    if |args| <= 1 then (if args == [] then "" else args[0])
    else args[0] + ", " + JoinArgs(args[1..])
  }

  /** `Name<A, B>`, or the bare name when there are no arguments. */
  function Compose(name: string, args: seq<string>): string {
    if args == [] then name else name + "<" + JoinArgs(args) + ">"
  }

  /** The codecs of the primitive type arguments; any other argument gets the refusing codec. */
  function PrimitiveBcs(t: TypeArg): Codec {
    if t.name == "bool" then BoolCodec
    else if t.name == "u64" then U64Codec
    else if t.name == "u128" then U128Codec
    else if t.name == "address" then AddressCodec
    else Refusing
  }

  function StringField(v: Value): Result<string> {
    if v.VStr? then Ok(v.s) else Err(Malformed("String"))
  }

  function Example(): Collaborators {
    Collaborators(
      s => s,
      Compose,
      (item, args) => true,
      PrimitiveBcs,
      (t, v) => v,
      IdBcs,
      FieldDecoders(IdFromFields, IdFromFieldsWithTypes, v => Ok(v)),
      Refusing,
      FieldDecoders(v => Err(Malformed("Bag")), v => Err(Malformed("Bag")), v => Err(Malformed("Bag"))),
      v => v,
      Refusing,
      FieldDecoders(StringField, StringField, StringField),
      OptionBcs,
      t => FieldDecoders(OptionFromFields, OptionFromFields, OptionFromFields))
  }

  /** The laws assumed of the collaborators are jointly satisfiable. */
  lemma ExampleIsLawful()
    ensures ComposeNoArgs(Example())
    ensures SiblingCodecsLawful(Example())
    ensures StringJsonIdentity(Example())
  {
    var fw := Example();
    IdLawful();
    RefusingLawful();
    BoolLawful();
    U128Lawful();
    UnsignedLawful("u64", 8);
    AddressLawful();
    forall t ensures Lawful(fw.toBcs(t)) {
    }
    forall c | Lawful(c) ensures Lawful(fw.optionBcs(c)) {
      OptionLawful(c);
    }
  }

  // ---------------------------------------------------------------- scenarios

  function Repeat(b: Byte, n: nat): (r: Bytes)
    ensures |r| == n && forall i :: 0 <= i < n ==> r[i] == b
  {
    seq(n, _ => b)
  }

  /** `ID` reads its 32 bytes back as the object holding their hex text. */
  lemma IdReads(bs: Bytes)
    requires |bs| == ADDRESS_LENGTH
    ensures IdBcs.read(bs) == Some((VObj(map["bytes" := VStr(Hex.ToHex(bs))]), []))
  {
    var fs := [Field("bytes", AddressCodec)];
    var hex := VStr(Hex.ToHex(bs));
    assert bs[..ADDRESS_LENGTH] == bs && bs[ADDRESS_LENGTH..] == [];
    assert AddressCodec.read(bs) == Some((hex, []));
    assert ReadFields(fs[1..], []) == Some((map[], []));
    assert ReadFields(fs, bs) == Some((map["bytes" := hex], []));
  }

  lemma HexOfZeros()
    ensures forall i :: 0 <= i < 64 ==> Hex.ToHex(Repeat(0, 32))[i] == '0'
  {
    forall i | 0 <= i < 64 ensures Hex.ToHex(Repeat(0, 32))[i] == '0' {
      Hex.ToHexIndex(Repeat(0, 32), i);
    }
  }

  lemma HexOfOnes()
    ensures forall i :: 0 <= i < 64 ==> Hex.ToHex(Repeat(1, 32))[i] == (if i % 2 == 0 then '0' else '1')
  {
    forall i | 0 <= i < 64 ensures Hex.ToHex(Repeat(1, 32))[i] == (if i % 2 == 0 then '0' else '1') {
      Hex.ToHexIndex(Repeat(1, 32), i);
    }
  }

  /**
   * A `Borrow` whose bytes are 32 zero bytes then 32 bytes of 0x01 decodes to `ref` = `0x`
   * followed by 64 zeros and `obj.bytes` = `0x` followed by `01` repeated 32 times.
   */
  lemma BorrowOfZerosAndOnes()
    ensures BorrowFromBcs(Example(), Repeat(0, 32) + Repeat(1, 32)) ==
      Ok(Borrow("0x" + Hex.ToHex(Repeat(0, 32)), VObj(map["bytes" := VStr("0x" + Hex.ToHex(Repeat(1, 32)))])))
    ensures forall i :: 0 <= i < 64 ==> Hex.ToHex(Repeat(0, 32))[i] == '0'
    ensures forall i :: 0 <= i < 64 ==> Hex.ToHex(Repeat(1, 32))[i] == (if i % 2 == 0 then '0' else '1')
  {
    var fw := Example();
    var ones := Repeat(1, 32);
    var idFields := VObj(map["bytes" := VStr(Hex.ToHex(ones))]);
    IdReads(ones);
    assert fw.idBcs == IdBcs;
    BorrowFromBcsDecodes(fw, Repeat(0, 32), ones, idFields);
    assert fw.id.fromFields == IdFromFields;
    assert Get(idFields, "bytes") == VStr(Hex.ToHex(ones));
    HexOfZeros();
    HexOfOnes();
  }

  lemma U64ReadsFortyTwo()
    ensures 42 < Pow256(8)
    ensures U64Codec.read(ToLE(42, 8)) == Some((VNum(42), []))
  {
    assert Pow256(8) == 256 * Pow256(7);
    var le := ToLE(42, 8);
    FromLEToLE(42, 8);
    assert le[..8] == le && le[8..] == [];
  }

  lemma OptionReadsPresent(c: Codec, bs: Bytes, x: Value)
    requires c.read(bs) == Some((x, []))
    ensures OptionBcs(c).read([1] + bs) == Some((VArr([x]), []))
  {
    assert ([1] + bs)[1..] == bs;
  }

  /** What the concrete collaborators do for the type argument `u64`. */
  lemma ExampleU64()
    ensures Example().toBcs(TypeArg("u64", [])) == U64Codec
    ensures Example().optionBcs == OptionBcs
    ensures Example().option(TypeArg("u64", [])).fromFields == OptionFromFields
    ensures ExtractType(Example(), TypeArg("u64", [])) == "u64"
  {
    assert ExtractTypes(Example(), []) == [];
  }

  /** `Referent<u64>` holding 42 decodes to the value 42. */
  lemma ReferentOfU64Present(idBytes: Bytes)
    requires |idBytes| == ADDRESS_LENGTH
    ensures ReferentFromBcs(Example(), TypeArg("u64", []), idBytes + ([1] + ToLE(42, 8))) ==
      Ok(Referent("u64", "0x" + Hex.ToHex(idBytes), VNum(42)))
  {
    ExampleU64();
    U64ReadsFortyTwo();
    OptionReadsPresent(U64Codec, ToLE(42, 8), VNum(42));
    ReferentFromBcsDecodes(Example(), TypeArg("u64", []), idBytes, [1] + ToLE(42, 8), VArr([VNum(42)]));
  }

  /** `Referent<u64>` holding nothing decodes to `null`. */
  lemma ReferentOfU64Absent(idBytes: Bytes)
    requires |idBytes| == ADDRESS_LENGTH
    ensures ReferentFromBcs(Example(), TypeArg("u64", []), idBytes + [0]) ==
      Ok(Referent("u64", "0x" + Hex.ToHex(idBytes), VNull))
  {
    ExampleU64();
    assert [0][1..] == [];
    assert OptionRead(U64Codec, [0]) == Some((VArr([]), []));
    ReferentFromBcsDecodes(Example(), TypeArg("u64", []), idBytes, [0], VArr([]));
  }

  /** The phantom key for `0x2::kiosk::Kiosk` decodes from its one byte under the concrete collaborators. */
  lemma KioskKeyUnderExample()
    ensures ExtensionKeyFromBcs(Example(), TypeArg("0x2::kiosk::Kiosk", []), [1]) ==
      Ok(ExtensionKey("0x2::kiosk::Kiosk", true))
  {
    ExampleIsLawful();
    KioskKeyDecodes(Example());
  }
}

=== FILE: type_name.dfy ===
/**
 * Binding of the Move struct `0x1::type_name::TypeName`: one ascii `String` field `name`.
 * This binding comes from the class-based generator, which adds the JSON decode paths,
 * `fromSuiParsedData` and a richer reified descriptor.
 */
module TypeNameStructs {
  import opened Results
  import opened Bytes
  import opened Values
  import opened Bcs
  import opened Framework

  const TYPE_NAME_TYPE_NAME: string := "0x1::type_name::TypeName"
  const TYPE_NAME_NUM_TYPE_PARAMS: nat := 0
  const STRUCT_CLASS_REIFIED: string := "StructClassReified"

  /** `isTypeName`: the compressed type string is exactly `0x1::type_name::TypeName`. */
  predicate IsTypeName(fw: Collaborators, t: string)
    ensures IsTypeName(fw, t) <==> fw.compress(t) == TYPE_NAME_TYPE_NAME
    ensures fw.compress(t) == TYPE_NAME_TYPE_NAME ==> IsTypeName(fw, t)
    ensures IsTypeName(fw, t) ==> '<' !in fw.compress(t) && |fw.compress(t)| == |TYPE_NAME_TYPE_NAME|
  {
    IsStruct(fw, t, TYPE_NAME_TYPE_NAME)
  }

  /** A `TypeName` instance: its `$fullTypeName` and the `name` it holds. */
  datatype TypeName = TypeName(fullTypeName: string, name: string)

  /** What every instance built by the private constructor satisfies. */
  predicate Constructed(t: TypeName) {
    t.fullTypeName == TYPE_NAME_TYPE_NAME
  }

  /** The private constructor (`reified().new`): a non-generic type's full name is its type name. */
  function NewTypeName(name: string): (t: TypeName)
    ensures Constructed(t) && t.name == name
  {
    TypeName(TYPE_NAME_TYPE_NAME, name)
  }

  /** `TypeName.bcs`: the single field `name`, laid out by the ascii `String` codec. */
  function TypeNameBcs(fw: Collaborators): (c: Codec)
    ensures Lawful(fw.stringBcs) ==> Lawful(c)
  {
    StructLawful("TypeName", [Field("name", fw.stringBcs)]);
    Struct("TypeName", [Field("name", fw.stringBcs)])
  }

  /** `TypeName.bcs` parses exactly the inputs that are one whole `String` encoding, to the object `{name}`. */
  lemma TypeNameParse(fw: Collaborators, data: Bytes)
    ensures Parse(TypeNameBcs(fw), data).Ok? <==> fw.stringBcs.read(data).Some? && fw.stringBcs.read(data).value.1 == []
    ensures Parse(TypeNameBcs(fw), data).Ok? ==>
      Parse(TypeNameBcs(fw), data).value == VObj(map["name" := fw.stringBcs.read(data).value.0])
  {
    var fs := [Field("name", fw.stringBcs)];
    if fw.stringBcs.read(data).Some? {
      var (v, rest) := fw.stringBcs.read(data).value;
      assert ReadFields(fs[1..], rest) == Some((map[], rest));
      assert ReadFields(fs, data) == Some((map["name" := v], rest));
    }
  }

  /** `TypeName.fromFields`: `name` decoded with the `String` decoders. */
  function TypeNameFromFields(fw: Collaborators, fields: Value): (r: Result<TypeName>)
    ensures r.Ok? <==> fw.str.fromFields(Get(fields, "name")).Ok?
    ensures r.Ok? ==> Constructed(r.value) && Ok(r.value.name) == fw.str.fromFields(Get(fields, "name"))
  {
    var name :- fw.str.fromFields(Get(fields, "name"));
    Ok(NewTypeName(name))
  }

  /** `TypeName.fromFieldsWithTypes`: nothing is decoded unless the type passes `isTypeName`. */
  function TypeNameFromFieldsWithTypes(fw: Collaborators, item: FieldsWithTypes): (r: Result<TypeName>)
    ensures !IsTypeName(fw, item.typ) ==> r == Err(NotThisType(TYPE_NAME_TYPE_NAME, item.typ))
    ensures r.Ok? <==> IsTypeName(fw, item.typ) && fw.str.fromFieldsWithTypes(Get(item.fields, "name")).Ok?
    ensures r.Ok? ==> Constructed(r.value) && Ok(r.value.name) == fw.str.fromFieldsWithTypes(Get(item.fields, "name"))
  {
    if !IsTypeName(fw, item.typ) then Err(NotThisType(TYPE_NAME_TYPE_NAME, item.typ))
    else
      var name :- fw.str.fromFieldsWithTypes(Get(item.fields, "name"));
      Ok(NewTypeName(name))
  }

  /** `TypeName.fromBcs`: parses with `TypeName.bcs`, then `fromFields`. */
  function TypeNameFromBcs(fw: Collaborators, data: Bytes): (r: Result<TypeName>)
    ensures r.Ok? ==> Constructed(r.value)
    ensures r.Ok? ==>
      && fw.stringBcs.read(data).Some? && fw.stringBcs.read(data).value.1 == []
      && Ok(r.value.name) == fw.str.fromFields(fw.stringBcs.read(data).value.0)
  {
    TypeNameParse(fw, data);
    var fields :- Parse(TypeNameBcs(fw), data);
    TypeNameFromFields(fw, fields)
  }

  /** `toJSONField`: the object `{name}`. */
  function TypeNameToJSONField(t: TypeName): (j: Value)
    ensures j.VObj? && j.fields.Keys == {"name"} && Get(j, "name") == VStr(t.name)
  {
    VObj(map["name" := VStr(t.name)])
  }

  /** `toJSON`: the `toJSONField` object tagged with `$typeName`. */
  function TypeNameToJSON(t: TypeName): (j: Value)
    ensures j.VObj? && j.fields.Keys == {"$typeName", "name"}
    ensures Get(j, "$typeName") == VStr(TYPE_NAME_TYPE_NAME) && Get(j, "name") == VStr(t.name)
  {
    VObj(map["$typeName" := VStr(TYPE_NAME_TYPE_NAME), "name" := VStr(t.name)])
  }

  /**
   * `fromJSONField`: `name` decoded with the `String` JSON decoder. The field is untyped, and
   * reading `name` off `null` or `undefined` throws.
   */
  function TypeNameFromJSONField(fw: Collaborators, field: Value): (r: Result<TypeName>)
    ensures field.VNull? ==> r == Err(Malformed("object"))
    ensures r.Ok? <==> !field.VNull? && fw.str.fromJSONField(Get(field, "name")).Ok?
    ensures r.Ok? ==> Constructed(r.value) && Ok(r.value.name) == fw.str.fromJSONField(Get(field, "name"))
  {
    if field.VNull? then Err(Malformed("object")) else
    var name :- fw.str.fromJSONField(Get(field, "name"));
    Ok(NewTypeName(name))
  }

  /** `fromJSON`: an object whose `$typeName` is not exactly `0x1::type_name::TypeName` is refused. */
  function TypeNameFromJSON(fw: Collaborators, json: Value): (r: Result<TypeName>)
    ensures Get(json, "$typeName") != VStr(TYPE_NAME_TYPE_NAME) ==> r == Err(NotThisJson(TYPE_NAME_TYPE_NAME))
    ensures Get(json, "$typeName") == VStr(TYPE_NAME_TYPE_NAME) ==> r == TypeNameFromJSONField(fw, json)
    ensures r.Ok? ==> Get(json, "$typeName") == VStr(TYPE_NAME_TYPE_NAME) && Constructed(r.value)
  {
    if Get(json, "$typeName") != VStr(TYPE_NAME_TYPE_NAME) then Err(NotThisJson(TYPE_NAME_TYPE_NAME))
    else TypeNameFromJSONField(fw, json)
  }

  /** `fromSuiParsedData`: only a Move object whose type passes `isTypeName` is decoded, as a typed item. */
  function TypeNameFromSuiParsedData(fw: Collaborators, content: SuiParsedData): (r: Result<TypeName>)
    ensures content.DataType() != "moveObject" ==> r == Err(NotAMoveObject)
    ensures content.MoveObject? && !IsTypeName(fw, content.typ) ==> r.Err?
    ensures content.MoveObject? && IsTypeName(fw, content.typ) ==>
      r == TypeNameFromFieldsWithTypes(fw, FieldsWithTypes(content.typ, content.fields))
  {
    if content.DataType() != "moveObject" then Err(NotAMoveObject)
    else if !IsTypeName(fw, content.typ) then Err(NotThisType(TYPE_NAME_TYPE_NAME, content.typ))
    else TypeNameFromFieldsWithTypes(fw, FieldsWithTypes(content.typ, content.fields))
  }

  /** `TypeName.reified()`. */
  function TypeNameReified(fw: Collaborators): (r: StructClassReified<TypeName>)
    ensures r.typeName == TYPE_NAME_TYPE_NAME
    ensures |r.typeArgs| == TYPE_NAME_NUM_TYPE_PARAMS
    ensures r.kind == STRUCT_CLASS_REIFIED
    ensures r.bcs == TypeNameBcs(fw)
    ensures forall fields :: r.fromFields(fields) == TypeNameFromFields(fw, fields)
    ensures forall item :: r.fromFieldsWithTypes(item) == TypeNameFromFieldsWithTypes(fw, item)
    ensures forall data :: r.fromBcs(data) == TypeNameFromBcs(fw, data)
    ensures forall field :: r.fromJSONField(field) == TypeNameFromJSONField(fw, field)
    ensures forall json :: r.fromJSON(json) == TypeNameFromJSON(fw, json)
    ensures forall name :: Constructed(r.make(name)) && r.make(name).name == name
  {
    StructClassReified(
      TYPE_NAME_TYPE_NAME,
      fw.compose(TYPE_NAME_TYPE_NAME, []),
      [],
      TypeNameBcs(fw),
      fields => TypeNameFromFields(fw, fields),
      item => TypeNameFromFieldsWithTypes(fw, item),
      data => TypeNameFromBcs(fw, data),
      field => TypeNameFromJSONField(fw, field),
      json => TypeNameFromJSON(fw, json),
      name => NewTypeName(name),
      STRUCT_CLASS_REIFIED)
  }

  /** With no type arguments the descriptor's full type name is its type name. */
  lemma TypeNameReifiedFullName(fw: Collaborators)
    requires ComposeNoArgs(fw)
    ensures TypeNameReified(fw).fullTypeName == TypeNameReified(fw).typeName
  {
  }

  /** `fromJSONField(toJSONField(x))` restores `x`. */
  lemma TypeNameJsonFieldRoundTrip(fw: Collaborators, t: TypeName)
    requires StringJsonIdentity(fw)
    requires Constructed(t)
    ensures TypeNameFromJSONField(fw, TypeNameToJSONField(t)) == Ok(t)
  {
    assert fw.str.fromJSONField(VStr(t.name)) == Ok(t.name);
  }

  /** `fromJSON(toJSON(x))` restores `x`. */
  lemma TypeNameJsonRoundTrip(fw: Collaborators, t: TypeName)
    requires StringJsonIdentity(fw)
    requires Constructed(t)
    ensures TypeNameFromJSON(fw, TypeNameToJSON(t)) == Ok(t)
  {
    assert fw.str.fromJSONField(VStr(t.name)) == Ok(t.name);
  }

  /** The encoding of a `TypeName` is exactly the `String` encoding of its name. */
  lemma TypeNameLayout(fw: Collaborators, name: Value)
    requires fw.stringBcs.write(name).Some?
    ensures TypeNameBcs(fw).write(VObj(map["name" := name])) == fw.stringBcs.write(name)
  {
    var v := VObj(map["name" := name]);
    var fs := [Field("name", fw.stringBcs)];
    assert Get(v, "name") == name;
    assert WriteFields(fs[1..], v) == Some([]);
    assert fw.stringBcs.write(name).value + [] == fw.stringBcs.write(name).value;
  }

  /** `fromBcs` is `fromFields` of the parse: bytes that are exactly one `String` encoding decode through the `String` decoders. */
  lemma TypeNameFromBcsDecodes(fw: Collaborators, data: Bytes, nameFields: Value)
    requires fw.stringBcs.read(data) == Some((nameFields, []))
    ensures TypeNameFromBcs(fw, data) == TypeNameFromFields(fw, VObj(map["name" := nameFields]))
  {
    var fs := [Field("name", fw.stringBcs)];
    assert ReadFields(fs[1..], []) == Some((map[], []));
    assert ReadFields(fs, data) == Some((map["name" := nameFields], []));
  }

  /** Encoding then `fromBcs`: a `name` that reads back exactly decodes as `fromFields` of `{name}`. */
  lemma TypeNameFromBcsRoundTrip(fw: Collaborators, name: Value)
    requires ReadsBackExactly(fw.stringBcs, name)
    ensures TypeNameBcs(fw).write(VObj(map["name" := name])).Some?
    ensures TypeNameFromBcs(fw, TypeNameBcs(fw).write(VObj(map["name" := name])).value) ==
      TypeNameFromFields(fw, VObj(map["name" := name]))
  {
    var bs := fw.stringBcs.write(name).value;
    TypeNameLayout(fw, name);
    assert fw.stringBcs.read(bs + []) == Some((name, []));
    assert bs + [] == bs;
    TypeNameFromBcsDecodes(fw, bs, name);
  }
}

=== FILE: values.dfy ===
/**
 * The untyped shapes the bindings exchange with their collaborators: the JavaScript values a
 * parsed binary layout, a "fields with types" RPC item or a JSON object is made of, and the
 * reified type arguments handed to generic bindings.
 */
module Values {

  /** A JavaScript value as far as the bindings inspect it; `VNull` also stands for `undefined`. */
  datatype Value =
    | VNull
    | VBool(b: bool)
    | VNum(n: int)
    | VStr(s: string)
    | VArr(items: seq<Value>)
    | VObj(fields: map<string, Value>)

  /** Property access `v.key`: the field when `v` is an object that has it, otherwise undefined. */
  function Get(v: Value, key: string): (r: Value)
    ensures v.VObj? && key in v.fields ==> r == v.fields[key]
    ensures !(v.VObj? && key in v.fields) ==> r == VNull
  {
    if v.VObj? && key in v.fields then v.fields[key] else VNull
  }

  /**
   * A reified type argument (`ReifiedTypeArgument`): a primitive such as `u64` has a name and
   * no arguments; a struct carries its type name and its own arguments; `vector<T>` is the
   * name `vector` with one argument.
   */
  datatype TypeArg = TypeArg(name: string, args: seq<TypeArg>)

  /** `FieldsWithTypes`: an on-chain value that echoes its declared type next to its fields. */
  datatype FieldsWithTypes = FieldsWithTypes(typ: string, fields: Value)

  /** `SuiParsedData`: the content of an object read from the chain, or a package. */
  datatype SuiParsedData = MoveObject(typ: string, fields: Value) | Package {
    function DataType(): string {
      if MoveObject? then "moveObject" else "package"
    }
  }
}
